=== FILE: README.md ===
# VEX V5 display simulator core, in Dafny

This project models the display core of `vex-sdk-desktop`, a desktop simulator of the VEX V5 brain's
480×272 screen. It has four parts:

- **The software rasteriser** (`src/canvas.rs`). A canvas is a row-major buffer of packed `0xRRGGBB`
  colours. It carries a drawing state (foreground and background colour, clip region) and one saved
  copy of that state. Its primitives are `set_pixel`, horizontal and vertical lines, `fill_rect`,
  `trace_rect`, `fill_circle` and `draw_header`.
- **The compositor** (`src/display.rs`). It keeps the visible buffer and its `fullscreen` and
  `autorender` flags. A redraw of the simulator window copies the user canvas and the header canvas
  into the visible buffer, but only on a scheduled frame.
- **The SDK adapter** (`src/sdk/display.rs`). The `vexDisplay*` entry points shift SDK rows below the
  32-row header. Their "Clear" variants draw in the background colour by swapping the colours around
  a canvas call.
- **The 60 Hz render timer** (`src/lib.rs`) and **the pre-rendered fonts** (`src/canvas/font.rs`):
  glyph lookup, opacity quantisation and font-name aliases.

Every operation is a pure function on immutable datatypes. Canvas operations are specified pixel by
pixel: for every on-screen point the contract gives its new colour, which says both what is painted
and that nothing else changes.

Where the Rust code would panic, the model has a `requires` that excludes exactly the panicking
inputs. The exceptions exclude inputs that do not panic: `Compositor.MaskFits` and the `center.x`
bound of `Drawing.NoI32Overflow`, which no caller in the code reaches, and the `i32` bounds of the
SDK adapter (`SdkDisplay.PixelArgsOk`, `SdkDisplay.CentreOk`, `SdkDisplay.ClipArgsOk`), which keep
the `i32` arithmetic and casts from wrapping. All are listed under "## Left out". The panics are:

- `u32` underflow;
- `Ord::clamp` with its lower bound above its upper bound;
- the `assert!`s in `clamp_range`;
- indexing past the buffer. The line loops compute the raw index `y * WIDTH + x` and panic only when
  it reaches `BUFSZ`. A vertical line on column 480 (which the clip test admits when the clip region
  ends at the right edge) therefore writes column 0 of the next row, and a horizontal line on row
  272 panics only if part of it survives the column clamp.

The behaviour of the code as written is kept. Some of it is surprising given the code's own comments
and names, and each such quirk is proved as a lemma about the as-written model:

- the inclusive row test lets a line escape the clip region (`Drawing.HorizontalLineEscapesClip`);
- `fill_rect` never reaches the last row and column of the clip region
  (`Drawing.FillRectSkipsLastRowAndColumn`);
- a circle at the left edge wraps to a reversed span (`Drawing.FillCircleWrapsAtLeftEdge`);
- `NUM_CHARS` is one short (`Fonts.NumCharsUndercounts`);
- the header canvas leaves its last column black (`Compositor.Redraw`);
- a vertical line on column 480 wraps to column 0 of the next row
  (`Drawing.VerticalLineWrapsToNextRow`, `SdkDisplay.RectDrawWrapsToColumnZero`).

Other behaviour of the code as written that the model keeps:

- `trace_rect` draws its bottom and right edges on `max.y` and `max.x`, one past the rectangle.
- A `fill_circle` span takes the last boundary point seen on its row, not the widest one
  (`Drawing.CircleSpansLastWins`).
- Radius 0 does `set_pixel` and then still draws its one-pixel line (the comment at
  src/canvas.rs:161-162 calls it a special case, but the code does not return after it), so the
  centre is also painted on the row just below the clip region.
- `vexDisplayClipRegionSet` applies no header shift.

Files: `types.dfy` (machine integers, `Option`), `geometry.dfy` (points, rects, ranges),
`buffer.dfy` (the pixel buffer), `drawing.dfy` (the canvas), `compositor.dfy` (display and window
redraw), `sdk_display.dfy` (SDK entry points), `frame_timer.dfy` (render timer), `fonts.dfy` (fonts).

## Model

| member | source | states |
|---|---|---|
| Types.WrapU32 | src/canvas.rs:176 | the `i32 as u32` cast keeps non-negative values and adds 2^32 to negative ones, landing at or above 2^31 |
| Geometry.NewRect | src/canvas.rs:237-246 | the result has `min <= max` on both axes and holds the same two values per axis, only possibly swapped |
| Geometry.ClipConstants | src/canvas.rs:233-235 | `FULL_CLIP`, `USER_CLIP` and `HEADER_CLIP` are the rects `Rect::new` builds from their corner arguments |
| Geometry.IsInside | src/canvas.rs:224-226 | containment is half-open: an empty rect holds nothing, a non-empty rect holds its `min` corner, and no rect holds its `max` corner |
| Geometry.Clamp | src/canvas.rs:220-221 | `Ord::clamp` returns a value within `[lo, hi]`: `lo` below the range, `hi` above it, and `v` itself when `v` lies in it |
| Geometry.ClampTo | src/canvas.rs:219-222 | on each axis, a coordinate below the region becomes `min`, one at or past `max` becomes `max - 1`, and one inside is kept |
| Geometry.ClipTo | src/canvas.rs:260-263 | clipping keeps `min <= max`; a pixel is in the result iff it is in `bounds` and in the region minus the region's last row and column |
| Geometry.Pixels | src/canvas.rs:265-267 | the enumeration holds exactly the pixels inside the rect, each once, ordered column by column and top to bottom within a column |
| Geometry.ClampRange | src/canvas.rs:283-308 | `None` exactly when the ranges are disjoint; otherwise `[max of starts, min of ends]`, and a value is in the result iff it is in both inputs |
| Geometry.FromSdk | src/canvas.rs:248-258 | the rect is normalised, negative corners are clamped to 0, rows are shifted by the header height, and the max corner becomes exclusive |
| Geometry.FromSdkPixels | src/canvas.rs:248-258 | for non-negative coordinates a pixel is inside `from_sdk` iff it lies in the inclusive SDK rectangle shifted down by 32 rows |
| Geometry.FromSdkOffscreenCoversColumnZero | src/canvas.rs:250-252 | a rectangle lying wholly left of the screen still covers column 0, because negatives are clamped before the `+ 1` |
| Geometry.ClipToFullClipKeepsInterior | src/canvas.rs:260-263 | clipping to the full surface leaves a rect unchanged when it stays off the surface's last row and column |
| Geometry.ClipToIdempotent | src/canvas.rs:260-263 | clipping twice to the same region is clipping once |
| Buffer.IndexInjective | src/canvas.rs:84 | the index `y * WIDTH + x` is different for different on-screen pixels |
| Buffer.BufferExt | src/canvas.rs:84 | two buffers that agree on every on-screen pixel are equal, since every index is some pixel's `y * WIDTH + x` |
| Buffer.Put | src/canvas.rs:84-85 | one write changes exactly the pixel at `y * WIDTH + x` |
| Buffer.PaintRow | src/canvas.rs:106-109 | the loop over `x_range` paints exactly the columns of the range on row `y` |
| Buffer.RawPixelIndex | src/canvas.rs:129 | for a column of at most 480, the raw index `y * WIDTH + x` addresses pixel `(x, y)`, or `(0, y + 1)` when `x` is 480 |
| Buffer.PaintColumn | src/canvas.rs:128-131 | the loop over `y_range` paints exactly the rows of the range in column `x`, or column 0 one row lower when `x` is 480; it needs only the last raw index inside the buffer |
| Buffer.PaintPoints | src/canvas.rs:139-142 | writing a colour at each point of a sequence paints exactly the points that occur in it |
| Buffer.PaintRect | src/canvas.rs:139-142 | painting a rect's pixel enumeration changes exactly the pixels inside the rect |
| Buffer.CopyPoints | src/display.rs:221-224 | copying `source[idx]` at each point of a sequence changes exactly the points that occur in it, to the source's values |
| Buffer.CopyRect | src/display.rs:221-224 | copying over a rect's pixel enumeration takes the source's value exactly inside the rect |
| Drawing.NewCanvas | src/canvas.rs:57-69 | a new canvas is all black, draws white on black, is clipped to the whole surface, and its saved state equals its live state |
| Drawing.SwapColors | src/canvas.rs:40-42 | foreground and background exchange places and the clip region is kept |
| Drawing.SwapColorsInvolution | src/canvas.rs:40-42 | swapping twice restores the state |
| Drawing.SetClipRegion | src/canvas.rs:44-47 | the stored region lies within the surface; a pixel is inside it iff it is inside the requested region and off the surface's last row and column; the colours are kept |
| Drawing.Save | src/canvas.rs:71-73 | the slot receives the live state and nothing else changes |
| Drawing.Restore | src/canvas.rs:75-77 | the live state becomes the saved one and nothing else changes |
| Drawing.SaveRestoreRoundTrip | src/canvas.rs:71-77 | whatever the state becomes after a save, restore brings back the saved state, clip region included |
| Drawing.SecondSaveOverwrites | src/canvas.rs:71-77 | a second save overwrites the slot, so after a change the first saved state can no longer be restored |
| Drawing.AtDeterminesBuffer | src/canvas.rs:207-209 | the buffer `Canvas::buffer` returns is determined by its on-screen pixels, each read at `y * WIDTH + x` |
| Drawing.SetPixel | src/canvas.rs:79-88 | the foreground colour is written at the point iff the point is inside the half-open clip region; every other pixel is unchanged |
| Drawing.DrawHorizontalLine | src/canvas.rs:90-110 | when `clip.min.y <= y <= clip.max.y`, row `y` is painted over the part of the range inside the clip columns; otherwise, and everywhere else, nothing changes; it is refused only where the code panics, which includes row 272 when some of the range survives the clamp |
| Drawing.DrawVerticalLine | src/canvas.rs:112-132 | when `clip.min.x <= x <= clip.max.x`, index `y * WIDTH + x` is painted for the rows of the range inside the clip rows: column `x`, or for `x == 480` column 0 of the next row; it is refused only where that index reaches past the buffer or `clamp_range` asserts |
| Drawing.HorizontalLineEscapesClip | src/canvas.rs:95-98 | a line on row `clip.max.y` passes the inclusive test and paints a pixel outside the clip region |
| Drawing.DefaultClipAdmitsRowPastBuffer | src/canvas.rs:96-108 | under `FULL_CLIP`, row 272 passes the row test, and an ordered range starting on screen would be written past the end of the buffer |
| Drawing.DefaultClipSkipsOffscreenRowPastBuffer | src/canvas.rs:96-104 | under `FULL_CLIP`, a line on row 272 wholly right of the screen is clamped away, does not panic and changes nothing |
| Drawing.VerticalLineWrapsToNextRow | src/canvas.rs:118-131 | under `FULL_CLIP`, a vertical line on column 480 paints column 0 one row below each row of its range |
| Drawing.FillRect | src/canvas.rs:134-143 | exactly the pixels inside both `bounds` and the clip region, minus the region's last row and column, become the foreground colour |
| Drawing.FillRectIdempotent | src/canvas.rs:134-143 | filling the same rect twice yields the same canvas as filling it once |
| Drawing.FillRectStaysInside | src/canvas.rs:134-143 | no pixel outside `bounds` or outside the clip region changes |
| Drawing.FillRectSkipsLastRowAndColumn | src/canvas.rs:219-222 | the clip region's last row and last column are never filled |
| Drawing.DrawHorizontalEdges | src/canvas.rs:149-151 | exactly the horizontal lines on rows `min.y` and `max.y` over `min.x..=max.x - 1` are painted, as the line primitive limits them |
| Drawing.DrawVerticalEdges | src/canvas.rs:153-155 | exactly the vertical lines on columns `min.x` and `max.x` over `min.y..=max.y - 1` are painted, as the line primitive limits and wraps them |
| Drawing.TraceRect | src/canvas.rs:145-156 | exactly the four edge lines on rows `min.y`, `max.y` and columns `min.x`, `max.x` are painted, each limited as its line primitive limits it |
| Drawing.TraceRectOnlyOutline | src/canvas.rs:145-156 | every changed pixel lies on one of those four lines, inside `[min, max]` on both axes, except that an edge on column 480 lands on column 0 of the rows `min.y + 1..=max.y` |
| Drawing.TraceRectWrapsRightEdge | src/canvas.rs:145-156 | under `FULL_CLIP`, a non-empty rect whose `max.x` is 480 paints column 0 one row below each row of its right edge |
| Drawing.ApplyCirclePoint | src/canvas.rs:176-182 | a boundary point with negative `dx` sets its line's start to `(cx + dx) as u32` and keeps the end; any other sets the end to `cx + dx` and keeps the start; other lines are unchanged, and a start stays left of the centre unless the cast wraps |
| Drawing.ApplyCirclePoints | src/canvas.rs:174-183 | after all boundary points every right end is right of the centre, every left end is left of it when no cast wraps, and lines no point touches are unchanged |
| Drawing.ApplyCirclePointsLastWins | src/canvas.rs:174-183 | each end of a line is set by the last boundary point on that line that moves it, the start to `(cx + dx) as u32` for negative `dx` and the end to `cx + dx` otherwise, and is kept when no point moves it |
| Drawing.CircleSpans | src/canvas.rs:171-183 | there are `2r + 1` spans, each starting as `(cx, cx)`; right ends never fall left of `cx`, and left ends never pass it unless the cast wraps |
| Drawing.CircleSpansLastWins | src/canvas.rs:171-183 | each span is `(cx, cx)` with each end replaced by the last boundary point on its line that moves that end, not the outermost one |
| Drawing.DrawSpans | src/canvas.rs:186-189 | span `j` is drawn as a horizontal line on row `y0 + j`, and nothing else changes |
| Drawing.FillCircle | src/canvas.rs:158-190 | the pixels painted are those of the `2r + 1` span lines on rows `center.y - r` onwards, plus the centre when the radius is 0 and the centre is inside the clip region |
| Drawing.FillCircleCoversCentreColumn | src/canvas.rs:171-172 | without wrap-around, column `center.x` is painted on every row of the circle that lies in the clip region |
| Drawing.FillCircleStaysInRows | src/canvas.rs:186-189 | nothing changes outside the circle's `2r + 1` rows or outside the clip region's columns |
| Drawing.FillCircleWrapsAtLeftEdge | src/canvas.rs:176-182 | for radius 1 centred in column 0, the middle span becomes `0xFFFF_FFFF..=1`, so the call trips `clamp_range`'s assert |
| Drawing.DrawHeader | src/canvas.rs:192-195 | the foreground becomes `HEADER_COLOR`, and the header rows inside the clip region, minus its last row and column, are filled with it |
| Compositor.NewDisplay | src/display.rs:211-217 | a new display is all black, not fullscreen, and renders automatically |
| Compositor.VisibleDeterminesBuffer | src/display.rs:260-264 | the buffer the display exposes is determined by its on-screen pixels, each read at `y * WIDTH + x` |
| Compositor.BlitRect | src/display.rs:220-225 | the visible buffer takes the source's value exactly at the pixels of the mask; the flags are kept |
| Compositor.RenderUserCanvas | src/display.rs:227-234 | the user canvas appears on every row in fullscreen, and otherwise on every row below the header, with the header rows kept |
| Compositor.SetFullscreen | src/display.rs:236-238 | only the `fullscreen` flag changes |
| Compositor.SetAutorender | src/display.rs:240-242 | only the `autorender` flag changes |
| Compositor.OpenWindow | src/display.rs:70-75 | a new window has a fresh header canvas and already has a frame scheduled |
| Compositor.QueueRedraw | src/display.rs:123-126 | a frame becomes scheduled |
| Compositor.Redraw | src/display.rs:136-149 | redraw clears the scheduled flag. On a scheduled frame: the header rows show `HEADER_COLOR` unless fullscreen (black in the last column, which `fill_rect` cannot reach); other rows show the user canvas if `autorender`, else what they held. Unscheduled: the display is untouched |
| Compositor.RedrawHeader | src/display.rs:146 | `draw_header` on a header canvas fills its header rows with `HEADER_COLOR` except the last column, which stays black |
| Compositor.BlitHeader | src/display.rs:147 | blitting through `HEADER_CLIP` replaces exactly the header rows with the header canvas |
| Compositor.UnscheduledRedrawsKeepDisplay | src/display.rs:136-149 | without a scheduled frame, two redraws in a row leave the visible buffer as it was and notify nobody |
| Compositor.ScheduledFrameConsumedOnce | src/display.rs:183-185 | of two redraws after one `queue_redraw`, only the first notifies waiters, and the second changes nothing |
| SdkDisplay.ForegroundColor | src/sdk/display.rs:15-17 | only the foreground colour changes |
| SdkDisplay.BackgroundColor | src/sdk/display.rs:19-22 | only the background colour changes |
| SdkDisplay.ForegroundColorGet | src/sdk/display.rs:161-164 | the value returned is the one colour whose setting through `vexDisplayForegroundColor` leaves the canvas unchanged |
| SdkDisplay.BackgroundColorGet | src/sdk/display.rs:166-169 | the value returned is the one colour whose setting through `vexDisplayBackgroundColor` leaves the canvas unchanged |
| SdkDisplay.ColorSetThenGet | src/sdk/display.rs:162-169 | a colour that was set reads back unchanged, and setting one colour leaves the other's getter unchanged |
| SdkDisplay.PixelSet | src/sdk/display.rs:49-56 | the foreground colour is written at canvas pixel `(x, y + 32)` iff it is in the clip region; nothing else changes |
| SdkDisplay.PixelClear | src/sdk/display.rs:58-67 | the same pixel is painted in the background colour, and both colours end as they were |
| SdkDisplay.RectFill | src/sdk/display.rs:114-118 | exactly the pixels of the inclusive SDK rectangle (corners in any order, negatives clamped, rows shifted by 32) that `fill_rect` can reach in the clip region become the foreground colour |
| SdkDisplay.RectClear | src/sdk/display.rs:106-112 | the same pixels become the background colour, and both colours end as they were |
| SdkDisplay.RectClearIsFillWithBackground | src/sdk/display.rs:106-112 | clearing a rectangle paints the same buffer as filling it with the colours exchanged |
| SdkDisplay.RectDraw | src/sdk/display.rs:100-104 | the outline of `from_sdk` of the rectangle is painted in the foreground colour and nothing else changes |
| SdkDisplay.RectDrawEdgesPastCorner | src/sdk/display.rs:100-104 | for an ordered rectangle, changed pixels lie on columns `x1` or `x2 + 1` or rows `y1 + 32` or `y2 + 33`: the right and bottom edges sit one past the named corner; a vertical edge on column 480 lands on column 0 one row down instead |
| SdkDisplay.RectDrawWrapsToColumnZero | src/sdk/display.rs:100-104 | `vexDisplayRectDraw(100, 0, 479, 101)` under the default clip paints column 0 on rows 33 to 134 |
| SdkDisplay.CircleFill | src/sdk/display.rs:145-154 | only rows within the clamped radius of the centre `(xc, yc + 32)` and columns of the clip region change, always to the foreground colour; without wrap-around the centre is painted when it is in the clip region |
| SdkDisplay.CircleClear | src/sdk/display.rs:131-143 | the same disc is drawn in the background colour, and both colours end as they were |
| SdkDisplay.CircleClearIsFillWithBackground | src/sdk/display.rs:131-143 | clearing a circle paints exactly the spans `fill_circle` paints, in the background colour |
| SdkDisplay.CircleNegativeRadiusIsZero | src/sdk/display.rs:153 | a negative radius draws exactly what radius 0 draws |
| SdkDisplay.ClipRegionSet | src/sdk/display.rs:190-194 | a pixel is in the new clip region iff it lies between the corners with `x2 + 1` and `y2 + 1` exclusive, unshifted, and off the surface's last row and column; the colours are kept |
| SdkDisplay.ClipRegionSetReachesHeader | src/sdk/display.rs:191-193 | a clip region set through the SDK includes header row 0 and stops 32 rows above the SDK row it names |
| SdkDisplay.Render | src/sdk/display.rs:204-214 | without vsync, automatic rendering is turned off and the user canvas is blitted at once below the header (everywhere when fullscreen) |
| SdkDisplay.DoubleBufferDisable | src/sdk/display.rs:218-222 | automatic rendering is turned back on and the visible buffer is kept |
| SdkDisplay.RenderedFrameSurvivesRedraw | src/sdk/display.rs:204-209 | after a render, a scheduled redraw keeps the rendered canvas below the header, whatever the canvas holds by then |
| SdkDisplay.DisabledDoubleBufferShowsCanvas | src/sdk/display.rs:219-222 | after disabling double buffering, the next scheduled redraw shows the live canvas below the header |
| FrameTimer.FramePeriodValue | src/lib.rs:80 | one second divided by 60 truncates to 16 666 666 ns, 40 ns short of a second over sixty frames |
| FrameTimer.NextRender | src/lib.rs:79-89 | the deadline is never in the past and never less than a period after the base; it is exactly base plus a period when that is not in the past, else now plus a period |
| FrameTimer.Reschedule | src/lib.rs:113-115 | after `n` timer fires the deadline has advanced at least `n` periods and is not before the last clock reading |
| FrameTimer.NoDrift | src/lib.rs:83 | when no fire runs a whole period late, the deadline after `n` fires is exactly `base + n` periods |
| FrameTimer.NewSimulator | src/lib.rs:70-77 | a new simulator has no window, no frame time and no timer |
| FrameTimer.NewEvents | src/lib.rs:107-128 | `Init` schedules from the current time; a timer fire schedules from the requested instant, records the frame time and queues a redraw on an open window; other causes change nothing |
| FrameTimer.FireKeepsGrid | src/lib.rs:113-124 | a fire that runs at most a period late wakes next exactly one period after the instant it asked for, and the window has a frame scheduled |
| FrameTimer.LateFireRestartsGrid | src/lib.rs:84-86 | a fire more than a period late schedules one period after the clock reading |
| Fonts.Quantize | src/canvas/font.rs:168 | every byte maps to one of 0, 85, 170, 255, never above the input and less than 85 below it, and is fixed iff it is a multiple of 85 |
| Fonts.QuantizeIdempotent | src/canvas/font.rs:168 | quantising twice is quantising once |
| Fonts.QuantizeMonotonic | src/canvas/font.rs:168 | quantisation preserves the order of opacities |
| Fonts.NewGlyph | src/canvas/font.rs:164-176 | every glyph pixel is quantised and lies less than one step below the rasteriser's value |
| Fonts.NewFont | src/canvas/font.rs:71-82 | a font holds 95 glyphs, glyph `i` being character `32 + i` |
| Fonts.NumCharsUndercounts | src/canvas/font.rs:31-32 | `NUM_CHARS` is 94, one less than the number of glyphs a font holds |
| Fonts.LowByte | src/canvas/font.rs:96 | `character as u8` is the byte that differs from the code point by a multiple of 256, and a code point below 256 is its own byte |
| Fonts.GlyphForChar | src/canvas/font.rs:93-100 | the glyph at index `low byte - 32` when it exists, and the `'.'` glyph at index 14 otherwise |
| Fonts.GlyphForPrintable | src/canvas/font.rs:96-97 | every printable ASCII character finds its own glyph |
| Fonts.GlyphForHighByte | src/canvas/font.rs:94-99 | bytes 127 to 255 find the `'.'` glyph |
| Fonts.GlyphForCharAliasesLowByte | src/canvas/font.rs:96 | a code point of 256 or more finds the glyph of its low byte |
| Fonts.InsertFonts | src/canvas/font.rs:44-49 | the entries' names become keys alongside the old ones, and names of no entry keep their fonts |
| Fonts.InsertFontsLastWins | src/canvas/font.rs:44-49 | the font under an entry's name is the one rendered from the last entry carrying that name, with that entry's face and size, as repeated `HashMap::insert` leaves it |
| Fonts.NewFontLoader | src/canvas/font.rs:41-56 | the loader holds exactly four names; "monospace" shares the 49-point font of "NotoSansMono" and "proportional" the 54-point font of "NotoSansLatin" |
| Fonts.LoaderNames | src/canvas/font.rs:51-60 | each alias returns the same font as its target name, and any name other than the four returns nothing |

## Left out

- Window creation, event handling, framebuffer scaling and presenting (src/display.rs:45-121 and
  151-193): these are winit, softbuffer and floating-point resizing code. `Compositor.Window` keeps
  only the header canvas and the scheduled flag.
- Concurrency: the `DISPLAY` and `CANVAS` mutexes, the frame condvar, `run_synced` (and with it the
  vsync path of `vexDisplayRender`), `dispatch_render` and the event-loop proxy. The model is
  sequential.
- The Bresenham circle iterator is an external crate. `fill_circle` takes its output as a sequence of
  `(dx, line)` points, which must stay within the `2r + 1` lines.
- Glyph rasterisation, brightening and metrics use floating point and font_kit. They are reduced to
  the `Fonts.Rasterizer` parameter. `cap_height`, `scaled_bounds`, `advance`, `render` and the
  `Debug` output are not modelled, and the point sizes 49.0 and 54.0 are kept as whole numbers.
- SDK entry points that are empty, return a default value, or are `unimplemented!`, and those that
  call canvas methods not defined in src/canvas.rs (`copy_rect`, `draw_line`, `trace_circle`,
  `pen_size`).
- `user_event` and `resumed` in src/lib.rs, logging, `Hex` and the unused `AUTORENDER` atomic.
- Upper bounds of `u32` and `usize` coordinates: coordinates are unbounded `nat`s. The `i32`
  arithmetic of the SDK adapter is bounded by preconditions instead of being allowed to wrap.
- The SDK entry points build a `Point` from `i32` values and call `Rect::new` with `i32` arguments.
  src/canvas.rs defines both over `u32`. The adapter therefore requires the translated coordinates
  to be non-negative, which is where the two definitions agree.
- Fonts.GlyphForChar: requires the low byte to be at least 32 (a debug-build `u8` underflow panic)
  instead of modelling the wrapped index of a release build.
- SdkDisplay.CircleFill: bounds the pixels it changes and fixes the centre pixel, rather than
  repeating the exact span set that `Drawing.FillCircle` states.
- SdkDisplay.CircleClear: likewise bounds the pixels it changes; the exact disc is stated by
  `SdkDisplay.CircleClearIsFillWithBackground` through `Drawing.FillCircle`.
- Drawing.TraceRectOnlyOutline: promises containment in `[min, max]` only when `max.x < 480`,
  because a vertical edge on column 480 is written to column 0 of the next row.
- SdkDisplay.RectDrawEdgesPastCorner: likewise promises containment only when `x2 + 1 < 480`.
- Compositor.MaskFits: `blit_rect` is modelled only for masks within the 480x272 surface. A wider
  mask such as `(0,0)-(481,1)` does not panic in the code (its raw indices stay below `BUFSZ`) and
  writes pixels of the next row; the code only ever blits `FULL_CLIP`, `USER_CLIP` and `HEADER_CLIP`.
- Drawing.NoI32Overflow: requires `center.x < 2^31`, while `center.x as i32` at src/canvas.rs:176
  wraps without panicking above that; the SDK adapter only passes centres built from non-negative
  `i32` values, which lie below that bound.
- Drawing.DefaultClipAdmitsRowPastBuffer: covers only ordered ranges that start on screen. A reversed
  range trips the `clamp_range` assert instead, and a range wholly right of the screen is clamped
  away (`Drawing.DefaultClipSkipsOffscreenRowPastBuffer`).
- FrameTimer.NewEvents: each call to `Instant::now()` is a parameter. The model asks only that
  the clock does not run backwards between the handler's two reads.

=== FILE: buffer.dfy ===
/**
 * The 480x272 row-major pixel buffer (`[u32; BUFSZ]`) shared by the canvas
 * and the compositor, and the loops that write into it.
 */
module Buffer {
  import opened Types
  import opened Geometry

  /** A packed `0xRRGGBB` colour in a `u32`. */
  type Color = uint32

  predicate IsBuffer(b: seq<Color>)
  {
    |b| == BUFSZ
  }

  predicate OnScreen(p: Point)
  {
    p.x < WIDTH && p.y < HEIGHT
  }

  /** The buffer index `y * WIDTH + x` of a pixel. */
  function Index(p: Point): nat
  {
    p.y * WIDTH + p.x
  }

  lemma IndexBounds(p: Point)
    requires OnScreen(p)
    ensures Index(p) < BUFSZ
  {
  }

  /** Distinct on-screen pixels have distinct indices. */
  lemma IndexInjective(p: Point, q: Point)
    requires OnScreen(p) && OnScreen(q) && Index(p) == Index(q)
    ensures p == q
  {
  }

  /** Every buffer index is the index of some on-screen pixel. */
  lemma IndexSurjective(i: nat)
    requires i < BUFSZ
    ensures OnScreen(Point(i % WIDTH, i / WIDTH)) && Index(Point(i % WIDTH, i / WIDTH)) == i
  {
  }

  /** Two buffers that agree on every on-screen pixel are equal. */
  lemma BufferExt(a: seq<Color>, b: seq<Color>)
    requires IsBuffer(a) && IsBuffer(b)
    requires forall p :: OnScreen(p) ==> a[Index(p)] == b[Index(p)]
    ensures a == b
  {
    forall i | 0 <= i < BUFSZ
      ensures a[i] == b[i]
    {
      IndexSurjective(i);
      var p := Point(i % WIDTH, i / WIDTH);
      assert a[Index(p)] == b[Index(p)];
    }
  }

  /** Writes one pixel. */
  function Put(b: seq<Color>, q: Point, color: Color): (r: seq<Color>)
    requires IsBuffer(b) && OnScreen(q)
    ensures IsBuffer(r)
    ensures forall p :: OnScreen(p) ==> r[Index(p)] == if p == q then color else b[Index(p)]
  {
    IndexBounds(q);
    forall p | OnScreen(p) && Index(p) == Index(q)
      ensures p == q
    {
      IndexInjective(p, q);
    }
    b[Index(q) := color]
  }

  /** Paints `(x, y)` for every `x` in `x..=last`, left to right. */
  function PaintRow(b: seq<Color>, y: nat, x: nat, last: nat, color: Color): (r: seq<Color>)
    requires IsBuffer(b) && y < HEIGHT && last < WIDTH
    ensures IsBuffer(r)
    ensures forall p :: OnScreen(p) ==>
              r[Index(p)] == if p.y == y && x <= p.x <= last then color else b[Index(p)]
    decreases last + 1 - x
  {
    if x > last then b else PaintRow(Put(b, Point(x, y), color), y, x + 1, last, color)
  }

  /**
   * The on-screen pixel that buffer index `y * WIDTH + x` addresses, for a
   * column `x` of at most `WIDTH`: column `WIDTH` is one past the end of row
   * `y`, which is the first pixel of row `y + 1`.
   */
  function RawPixel(x: nat, y: nat): Point
    requires x <= WIDTH
  {
    if x < WIDTH then Point(x, y) else Point(0, y + 1)
  }

  /** Index `y * WIDTH + x` addresses exactly `RawPixel(x, y)`. */
  lemma RawPixelIndex(x: nat, y: nat, p: Point)
    requires x <= WIDTH && OnScreen(p)
    ensures Index(p) == y * WIDTH + x <==> p == RawPixel(x, y)
  {
  }

  /** Whether `PaintColumn(_, x, y, last, _)` writes the on-screen pixel `p`. */
  predicate ColumnHits(x: nat, y: nat, last: nat, p: Point)
  {
    if x < WIDTH then p.x == x && y <= p.y <= last
    else x == WIDTH && p.x == 0 && y + 1 <= p.y <= last + 1
  }

  /**
   * Writes buffer index `row * WIDTH + x` for every `row` in `y..=last`, top
   * to bottom. For `x < WIDTH` that is the column `x`; for `x == WIDTH` the
   * raw index runs one past each row, onto column 0 of the next row.
   */
  function PaintColumn(b: seq<Color>, x: nat, y: nat, last: nat, color: Color): (r: seq<Color>)
    requires IsBuffer(b) && x <= WIDTH && (y <= last ==> last * WIDTH + x < BUFSZ)
    ensures IsBuffer(r)
    ensures forall p :: OnScreen(p) ==>
              r[Index(p)] == if ColumnHits(x, y, last, p) then color else b[Index(p)]
    decreases last + 1 - y
  {
    if y > last then b
    else
      var q := RawPixel(x, y);
      assert y * WIDTH <= last * WIDTH;
      forall p | OnScreen(p)
        ensures Index(p) == y * WIDTH + x <==> p == q
      {
        RawPixelIndex(x, y, p);
      }
      PaintColumn(Put(b, q, color), x, y + 1, last, color)
  }

  /** Writes `color` at each point of `ps`, in order. */
  function PaintPoints(b: seq<Color>, ps: seq<Point>, color: Color): (r: seq<Color>)
    requires IsBuffer(b)
    requires forall i :: 0 <= i < |ps| ==> OnScreen(ps[i])
    ensures IsBuffer(r)
    ensures forall p :: OnScreen(p) ==> r[Index(p)] == if p in ps then color else b[Index(p)]
    decreases |ps|
  {
    if |ps| == 0 then b
    else
      var r := PaintPoints(Put(b, ps[0], color), ps[1..], color);
      assert forall p :: p in ps <==> p == ps[0] || p in ps[1..];
      r
  }

  /** Copies `src` into `b` at each point of `ps`, in order. */
  function CopyPoints(b: seq<Color>, src: seq<Color>, ps: seq<Point>): (r: seq<Color>)
    requires IsBuffer(b) && IsBuffer(src)
    requires forall i :: 0 <= i < |ps| ==> OnScreen(ps[i])
    ensures IsBuffer(r)
    ensures forall p :: OnScreen(p) ==> r[Index(p)] == if p in ps then src[Index(p)] else b[Index(p)]
    decreases |ps|
  {
    if |ps| == 0 then b
    else
      IndexBounds(ps[0]);
      var r := CopyPoints(Put(b, ps[0], src[Index(ps[0])]), src, ps[1..]);
      assert forall p :: p in ps <==> p == ps[0] || p in ps[1..];
      r
  }

  /** Writes `color` at every pixel of `r`, in `Rect::pixels` order. */
  function PaintRect(b: seq<Color>, r: Rect, color: Color): (b': seq<Color>)
    requires IsBuffer(b) && (r.NonEmpty() ==> r.max.x <= WIDTH && r.max.y <= HEIGHT)
    ensures IsBuffer(b')
    ensures forall p :: OnScreen(p) ==> b'[Index(p)] == if IsInside(p, r) then color else b[Index(p)]
  {
    var pixels := Pixels(r);
    assert forall i :: 0 <= i < |pixels| ==> OnScreen(pixels[i]) by {
      forall i | 0 <= i < |pixels| ensures OnScreen(pixels[i]) {
        assert pixels[i] in pixels;
      }
    }
    PaintPoints(b, pixels, color)
  }

  /** Copies `src` into `b` at every pixel of `r`, in `Rect::pixels` order. */
  function CopyRect(b: seq<Color>, src: seq<Color>, r: Rect): (b': seq<Color>)
    requires IsBuffer(b) && IsBuffer(src) && (r.NonEmpty() ==> r.max.x <= WIDTH && r.max.y <= HEIGHT)
    ensures IsBuffer(b')
    ensures forall p :: OnScreen(p) ==> b'[Index(p)] == if IsInside(p, r) then src[Index(p)] else b[Index(p)]
  {
    var pixels := Pixels(r);
    assert forall i :: 0 <= i < |pixels| ==> OnScreen(pixels[i]) by {
      forall i | 0 <= i < |pixels| ensures OnScreen(pixels[i]) {
        assert pixels[i] in pixels;
      }
    }
    CopyPoints(b, src, pixels)
  }
}

=== FILE: compositor.dfy ===
/**
 * The display compositor of src/display.rs: the visible buffer with its
 * `fullscreen` and `autorender` flags, and the composite step a redraw of the
 * simulator window performs when a frame was scheduled. Window creation,
 * scaling, presenting and the locks around both buffers are not modelled.
 */
module Compositor {
  import opened Geometry
  import opened Buffer
  import opened Drawing

  /** `SimDisplay`. */
  datatype SimDisplay = SimDisplay(buffer: seq<Color>, fullscreen: bool, autorender: bool)
  {
    predicate Valid()
    {
      IsBuffer(buffer)
    }
  }

  /** The colour the visible buffer holds at an on-screen pixel. */
  function Visible(d: SimDisplay, p: Point): Color
    requires d.Valid() && OnScreen(p)
  {
    IndexBounds(p);
    d.buffer[Index(p)]
  }

  /** Two displays whose visible pixels agree show the same buffer. */
  lemma VisibleDeterminesBuffer(d: SimDisplay, e: SimDisplay)
    requires d.Valid() && e.Valid()
    requires forall p :: OnScreen(p) ==> Visible(d, p) == Visible(e, p)
    ensures d.buffer == e.buffer
  {
    BufferExt(d.buffer, e.buffer);
  }

  /** `SimDisplay::new`: black, header shown, automatic rendering on. */
  function NewDisplay(): (d: SimDisplay)
    ensures d.Valid()
    ensures forall p :: OnScreen(p) ==> Visible(d, p) == 0
    ensures !d.fullscreen && d.autorender
  {
    SimDisplay(seq(BUFSZ, _ => 0), false, true)
  }

  /** `blit_rect` indexes both buffers at every pixel of a non-empty mask, so such a mask must fit the surface. */
  predicate MaskFits(mask: Rect)
  {
    mask.NonEmpty() ==> mask.max.x <= WIDTH && mask.max.y <= HEIGHT
  }

  /** `SimDisplay::blit_rect`: copies `source` into the visible buffer at exactly the pixels of `mask`. */
  function BlitRect(d: SimDisplay, source: seq<Color>, mask: Rect): (r: SimDisplay)
    requires d.Valid() && IsBuffer(source) && MaskFits(mask)
    ensures r.Valid() && r.fullscreen == d.fullscreen && r.autorender == d.autorender
    ensures forall p :: OnScreen(p) ==>
              Visible(r, p) == if IsInside(p, mask) then source[Index(p)] else Visible(d, p)
  {
    d.(buffer := CopyRect(d.buffer, source, mask))
  }

  /**
   * `SimDisplay::render_user_canvas`: blits the user canvas through the full
   * mask in fullscreen mode and through the user mask otherwise, so the
   * header rows are left alone unless fullscreen.
   */
  function RenderUserCanvas(d: SimDisplay, canvas: Canvas): (r: SimDisplay)
    requires d.Valid() && canvas.Valid()
    ensures r.Valid() && r.fullscreen == d.fullscreen && r.autorender == d.autorender
    ensures forall p :: OnScreen(p) ==>
              Visible(r, p) == if d.fullscreen || p.y >= HEADER_HEIGHT then At(canvas, p) else Visible(d, p)
  {
    var mask := if d.fullscreen then FULL_CLIP else USER_CLIP;
    assert forall p :: OnScreen(p) ==> (IsInside(p, mask) <==> d.fullscreen || p.y >= HEADER_HEIGHT);
    BlitRect(d, canvas.buffer, mask)
  }

  /** `SimDisplay::set_fullscreen`. */
  function SetFullscreen(d: SimDisplay, fullscreen: bool): (r: SimDisplay)
    ensures r.fullscreen == fullscreen
    ensures r.buffer == d.buffer && r.autorender == d.autorender
  {
    d.(fullscreen := fullscreen)
  }

  /** `SimDisplay::set_autorender`. */
  function SetAutorender(d: SimDisplay, autorender: bool): (r: SimDisplay)
    ensures r.autorender == autorender
    ensures r.buffer == d.buffer && r.fullscreen == d.fullscreen
  {
    d.(autorender := autorender)
  }

  /**
   * The header canvas a window owns: full-surface clip, and only the pixels
   * `draw_header` can reach (the header band minus its last column) ever
   * differ from black.
   */
  ghost predicate HeaderCanvasOk(h: Canvas)
  {
    && h.Valid() && h.state.clip == FULL_CLIP
    && forall p :: OnScreen(p) && !(p.x + 1 < WIDTH && p.y < HEADER_HEIGHT) ==> At(h, p) == 0
  }

  /** The part of `SimDisplayWindow` the composite step uses. */
  datatype Window = Window(header: Canvas, hasScheduledFrame: bool)

  /** A freshly opened window: a new header canvas, and the first redraw already scheduled. */
  function OpenWindow(): (w: Window)
    ensures HeaderCanvasOk(w.header) && w.hasScheduledFrame
  {
    Window(NewCanvas(), true)
  }

  /** `SimDisplayWindow::queue_redraw` (the redraw request to the event loop is not modelled). */
  function QueueRedraw(w: Window): (r: Window)
    ensures r.hasScheduledFrame && r.header == w.header
  {
    w.(hasScheduledFrame := true)
  }

  /** The result of a redraw: the window, the display, and whether waiters on the frame signal were woken. */
  datatype Frame = Frame(window: Window, display: SimDisplay, notified: bool)

  /**
   * The composite part of `SimDisplayWindow::redraw`. It takes the scheduled
   * flag, and only on a scheduled frame renders the user canvas (when
   * `autorender`) and then, unless fullscreen, redraws the header canvas and
   * blits the header band on top. Waiters are notified exactly on scheduled
   * frames.
   */
  function Redraw(w: Window, d: SimDisplay, user: Canvas): (f: Frame)
    requires HeaderCanvasOk(w.header) && d.Valid() && user.Valid()
    ensures HeaderCanvasOk(f.window.header) && f.display.Valid()
    ensures !f.window.hasScheduledFrame
    ensures f.notified == w.hasScheduledFrame
    ensures f.display.fullscreen == d.fullscreen && f.display.autorender == d.autorender
    ensures !w.hasScheduledFrame ==> f.display == d && f.window.header == w.header
    ensures w.hasScheduledFrame ==> forall p :: OnScreen(p) ==>
              Visible(f.display, p) ==
                if !d.fullscreen && p.y < HEADER_HEIGHT then (if p.x + 1 < WIDTH then HEADER_COLOR else 0)
                else if d.autorender then At(user, p)
                else Visible(d, p)
  {
    var isScheduled := w.hasScheduledFrame;
    var w' := w.(hasScheduledFrame := false);
    if !isScheduled then Frame(w', d, false)
    else
      var d1 := if d.autorender then RenderUserCanvas(d, user) else d;
      if d1.fullscreen then Frame(w', d1, true)
      else
        var header := RedrawHeader(w.header);
        Frame(w'.(header := header), BlitHeader(d1, header), true)
  }

  /** `draw_header` on a window's header canvas paints the header band except its last column. */
  function RedrawHeader(h: Canvas): (r: Canvas)
    requires HeaderCanvasOk(h)
    ensures HeaderCanvasOk(r)
    ensures forall p :: OnScreen(p) && p.y < HEADER_HEIGHT ==>
              At(r, p) == if p.x + 1 < WIDTH then HEADER_COLOR else 0
  {
    DrawHeader(h)
  }

  /** The header blit of a non-fullscreen redraw. */
  function BlitHeader(d: SimDisplay, h: Canvas): (r: SimDisplay)
    requires d.Valid() && h.Valid()
    ensures r.Valid() && r.fullscreen == d.fullscreen && r.autorender == d.autorender
    ensures forall p :: OnScreen(p) ==>
              Visible(r, p) == if p.y < HEADER_HEIGHT then At(h, p) else Visible(d, p)
  {
    BlitRect(d, h.buffer, HEADER_CLIP)
  }

  /** Without a scheduled frame, any number of redraws leave the visible buffer as it was. */
  lemma UnscheduledRedrawsKeepDisplay(w: Window, d: SimDisplay, user: Canvas)
    requires HeaderCanvasOk(w.header) && d.Valid() && user.Valid() && !w.hasScheduledFrame
    ensures var f := Redraw(w, d, user);
            Redraw(f.window, f.display, user).display == d && !f.notified
  {
  }

  /** A scheduled frame is consumed: of two redraws in a row only the first composites and notifies. */
  lemma ScheduledFrameConsumedOnce(w: Window, d: SimDisplay, user: Canvas)
    requires HeaderCanvasOk(w.header) && d.Valid() && user.Valid()
    ensures var f1 := Redraw(QueueRedraw(w), d, user);
            var f2 := Redraw(f1.window, f1.display, user);
            f1.notified && !f2.notified && f2.display == f1.display
  {
  }
}

=== FILE: drawing.dfy ===
/**
 * The software rasteriser of src/canvas.rs: a canvas is a pixel buffer plus
 * a live drawing state and one saved copy of it. Every primitive is a pure
 * function from canvas to canvas whose contract says, pixel by pixel, what
 * it writes and that it writes nothing else.
 */
module Drawing {
  import opened Types
  import opened Geometry
  import opened Buffer

  const DEFAULT_BG_COLOR: Color := 0x00_00_00
  const DEFAULT_FG_COLOR: Color := 0xFF_FF_FF
  const HEADER_COLOR: Color := 0x00_99_CC

  datatype CanvasState = CanvasState(fg: Color, bg: Color, clip: Rect)

  datatype Canvas = Canvas(buffer: seq<Color>, state: CanvasState, saved: CanvasState)
  {
    /** A full-size buffer, and clip regions that never reach past the surface. */
    predicate Valid()
    {
      IsBuffer(buffer) && ClipFits(state.clip) && ClipFits(saved.clip)
    }
  }

  /** Every pixel inside the clip region is on screen. */
  predicate ClipFits(clip: Rect)
  {
    clip.max.x <= WIDTH && clip.max.y <= HEIGHT
  }

  /** The colour a canvas holds at an on-screen pixel. */
  function At(c: Canvas, p: Point): Color
    requires c.Valid() && OnScreen(p)
  {
    IndexBounds(p);
    c.buffer[Index(p)]
  }

  /**
   * Reading `Canvas::buffer` pixel by pixel loses nothing: two canvases whose
   * pixels agree hold the same buffer, so the per-pixel contracts below fix
   * the whole buffer.
   */
  lemma AtDeterminesBuffer(c: Canvas, d: Canvas)
    requires c.Valid() && d.Valid()
    requires forall p :: OnScreen(p) ==> At(c, p) == At(d, p)
    ensures c.buffer == d.buffer
  {
    BufferExt(c.buffer, d.buffer);
  }

  /** `Canvas::new`: a black buffer, white on black, clipped to the whole surface, saved state equal to the live one. */
  function NewCanvas(): (c: Canvas)
    ensures c.Valid()
    ensures forall p :: OnScreen(p) ==> At(c, p) == 0
    ensures c.state == CanvasState(DEFAULT_FG_COLOR, DEFAULT_BG_COLOR, FULL_CLIP)
    ensures c.saved == c.state
  {
    var state := CanvasState(DEFAULT_FG_COLOR, DEFAULT_BG_COLOR, FULL_CLIP);
    Canvas(seq(BUFSZ, _ => 0), state, state)
  }

  /** `CanvasState::swap_colors`. */
  function SwapColors(s: CanvasState): (r: CanvasState)
    ensures r.fg == s.bg && r.bg == s.fg && r.clip == s.clip
  {
    s.(fg := s.bg, bg := s.fg)
  }

  /** Swapping the colours twice gives back the original state. */
  lemma SwapColorsInvolution(s: CanvasState)
    ensures SwapColors(SwapColors(s)) == s
  {
  }

  /**
   * `CanvasState::set_clip_region`: the stored region is the requested one
   * clipped to the surface, so it always fits the surface and never
   * includes the surface's last row or column.
   */
  function SetClipRegion(s: CanvasState, region: Rect): (r: CanvasState)
    ensures r.fg == s.fg && r.bg == s.bg
    ensures WithinSurface(r.clip) && ClipFits(r.clip)
    ensures region.Normal() ==> r.clip.Normal()
    ensures forall p {:trigger IsInside(p, r.clip)} ::
              IsInside(p, r.clip) <==> IsInside(p, region) && p.x + 1 < WIDTH && p.y + 1 < HEIGHT
  {
    s.(clip := ClipTo(region, FULL_CLIP))
  }

  /** `Canvas::save`: a second save overwrites the first. */
  function Save(c: Canvas): (r: Canvas)
    ensures r.saved == c.state
    ensures r.state == c.state && r.buffer == c.buffer
    ensures c.Valid() ==> r.Valid()
  {
    c.(saved := c.state)
  }

  /** `Canvas::restore`. */
  function Restore(c: Canvas): (r: Canvas)
    ensures r.state == c.saved
    ensures r.saved == c.saved && r.buffer == c.buffer
    ensures c.Valid() ==> r.Valid()
  {
    c.(state := c.saved)
  }

  /** Whatever the state becomes after a save, restoring brings back the saved state, clip region included. */
  lemma SaveRestoreRoundTrip(c: Canvas, mutated: CanvasState)
    ensures Restore(Save(c).(state := mutated)).state == c.state
  {
  }

  /**
   * The slot holds only the latest save: saving again after a change
   * overwrites the first save, so a later restore can no longer bring back
   * the state first saved.
   */
  lemma SecondSaveOverwrites(c: Canvas, mutated: CanvasState, later: CanvasState)
    ensures Save(Save(c).(state := mutated)).saved == mutated
    ensures mutated != c.state ==> Restore(Save(Save(c).(state := mutated)).(state := later)).state != c.state
  {
  }

  /** `Canvas::set_pixel`: writes the foreground colour at `point` exactly when it is inside the clip region. */
  function SetPixel(c: Canvas, point: Point): (r: Canvas)
    requires c.Valid()
    ensures r.Valid() && r.state == c.state && r.saved == c.saved
    ensures forall p :: OnScreen(p) ==>
              At(r, p) == if p == point && IsInside(point, c.state.clip) then c.state.fg else At(c, p)
  {
    if !IsInside(point, c.state.clip) then c
    else c.(buffer := Put(c.buffer, point, c.state.fg))
  }

  /**
   * The pixels `draw_horizontal_line(x_range, y)` paints: row `y`, when the
   * inclusive test `clip.min.y <= y <= clip.max.y` passes, over the part of
   * `x_range` that lies in the clip region's columns.
   */
  predicate HLineCovers(clip: Rect, xs: InclusiveRange, y: nat, p: Point)
  {
    p.y == y && clip.min.y <= y <= clip.max.y && clip.min.x <= p.x < clip.max.x && InRange(p.x, xs)
  }

  /**
   * The pixels `draw_vertical_line(x, y_range)` paints: when the inclusive
   * test `clip.min.x <= x <= clip.max.x` passes, the buffer index
   * `y * WIDTH + x` of every row `y` of `y_range` inside the clip region. On
   * column `WIDTH` (the test admits it when `clip.max.x == WIDTH`) that index
   * is column 0 of the row below.
   */
  predicate VLineCovers(clip: Rect, x: nat, ys: InclusiveRange, p: Point)
  {
    && clip.min.x <= x <= clip.max.x
    && if x < WIDTH then p.x == x && VSpanRow(clip, ys, p.y)
       else x == WIDTH && p.x == 0 && 1 <= p.y && VSpanRow(clip, ys, p.y - 1)
  }

  /** Row `y` lies in the clip region's rows and in `ys`. */
  predicate VSpanRow(clip: Rect, ys: InclusiveRange, y: int)
  {
    clip.min.y <= y < clip.max.y && InRange(y, ys)
  }

  /**
   * When the row test passes, `draw_horizontal_line` does not panic only if
   * `clip.max.x - 1` neither underflows nor falls below `clip.min.x` and
   * `x_range` is not reversed (the asserts of `clamp_range`), and, when some
   * of `x_range` survives the clamp, the row is inside the buffer.
   */
  predicate HLineSafe(clip: Rect, xs: InclusiveRange, y: nat)
  {
    clip.min.y <= y <= clip.max.y ==>
      && clip.min.x < clip.max.x && xs.start <= xs.end
      && (ClampRange(xs, InclusiveRange(clip.min.x, clip.max.x - 1)).Some? ==> y < HEIGHT)
  }

  /**
   * The vertical counterpart of `HLineSafe`: the raw index of the last row
   * written, `last * WIDTH + x`, must lie inside the buffer.
   */
  predicate VLineSafe(clip: Rect, x: nat, ys: InclusiveRange)
  {
    clip.min.x <= x <= clip.max.x ==>
      && clip.min.y < clip.max.y && ys.start <= ys.end
      && var span := ClampRange(ys, InclusiveRange(clip.min.y, clip.max.y - 1));
         span.Some? ==> span.value.end * WIDTH + x < BUFSZ
  }

  /** `Canvas::draw_horizontal_line`. */
  function DrawHorizontalLine(c: Canvas, xs: InclusiveRange, y: nat): (r: Canvas)
    requires c.Valid() && HLineSafe(c.state.clip, xs, y)
    ensures r.Valid() && r.state == c.state && r.saved == c.saved
    ensures forall p :: OnScreen(p) ==>
              At(r, p) == if HLineCovers(c.state.clip, xs, y, p) then c.state.fg else At(c, p)
  {
    var clip := c.state.clip;
    if !(clip.min.y <= y <= clip.max.y) then c
    else
      match ClampRange(xs, InclusiveRange(clip.min.x, clip.max.x - 1))
      case None => c
      case Some(span) => c.(buffer := PaintRow(c.buffer, y, span.start, span.end, c.state.fg))
  }

  /** `Canvas::draw_vertical_line`. */
  function DrawVerticalLine(c: Canvas, x: nat, ys: InclusiveRange): (r: Canvas)
    requires c.Valid() && VLineSafe(c.state.clip, x, ys)
    ensures r.Valid() && r.state == c.state && r.saved == c.saved
    ensures forall p :: OnScreen(p) ==>
              At(r, p) == if VLineCovers(c.state.clip, x, ys, p) then c.state.fg else At(c, p)
  {
    var clip := c.state.clip;
    if !(clip.min.x <= x <= clip.max.x) then c
    else
      match ClampRange(ys, InclusiveRange(clip.min.y, clip.max.y - 1))
      case None => c
      case Some(span) => c.(buffer := PaintColumn(c.buffer, x, span.start, span.end, c.state.fg))
  }

  /**
   * The inclusive row test lets a line through on the row just below the
   * clip region, so a line can paint a pixel outside the clip region.
   */
  lemma HorizontalLineEscapesClip(c: Canvas, x: nat)
    requires c.Valid() && c.state.clip.Normal()
    requires c.state.clip.min.x <= x < c.state.clip.max.x && c.state.clip.max.y < HEIGHT
    ensures var p := Point(x, c.state.clip.max.y);
            !IsInside(p, c.state.clip) &&
            At(DrawHorizontalLine(c, InclusiveRange(x, x), c.state.clip.max.y), p) == c.state.fg
  {

  }

  /**
   * Under the default full-surface clip, a line on row 272 passes the row
   * test, and if any of it lies on the screen's columns it would be written
   * past the end of the buffer.
   */
  lemma DefaultClipAdmitsRowPastBuffer(xs: InclusiveRange)
    requires xs.start <= xs.end && xs.start < WIDTH
    ensures FULL_CLIP.min.y <= HEIGHT <= FULL_CLIP.max.y
    ensures !HLineSafe(FULL_CLIP, xs, HEIGHT)
  {
  }

  /** On row 272, a line wholly right of the screen is clamped away and changes nothing. */
  lemma DefaultClipSkipsOffscreenRowPastBuffer(c: Canvas, xs: InclusiveRange)
    requires c.Valid() && c.state.clip == FULL_CLIP && WIDTH <= xs.start <= xs.end
    ensures HLineSafe(FULL_CLIP, xs, HEIGHT)
    ensures DrawHorizontalLine(c, xs, HEIGHT) == c
  {
  }

  /**
   * A vertical line on column 480, which the default clip admits, paints
   * column 0 one row below each row it covers.
   */
  lemma VerticalLineWrapsToNextRow(c: Canvas, ys: InclusiveRange, y: nat)
    requires c.Valid() && c.state.clip == FULL_CLIP
    requires ys.start <= y <= ys.end && ys.end + 1 < HEIGHT
    ensures VLineSafe(FULL_CLIP, WIDTH, ys)
    ensures At(DrawVerticalLine(c, WIDTH, ys), Point(0, y + 1)) == c.state.fg
  {
  }

  /**
   * `Canvas::fill_rect`: paints the pixels of `bounds` clipped to the clip
   * region. `clip_to` panics on an empty clip region, and since it clamps the
   * exclusive corner to `clip.max - 1`, the clip region's last row and last
   * column are never painted. The painted condition is `Fillable`, spelled out
   * so that `FillRectIdempotent` stays cheap to state.
   */
  function FillRect(c: Canvas, bounds: Rect): (r: Canvas)
    requires c.Valid() && c.state.clip.NonEmpty()
    ensures r.Valid() && r.state == c.state && r.saved == c.saved
    ensures forall p :: OnScreen(p) ==>
              At(r, p) == if IsInside(p, bounds) && IsInside(p, c.state.clip)
                             && p.x + 1 < c.state.clip.max.x && p.y + 1 < c.state.clip.max.y
                          then c.state.fg else At(c, p)
  {
    c.(buffer := PaintRect(c.buffer, ClipTo(bounds, c.state.clip), c.state.fg))
  }

  /** Filling the same rectangle twice gives the same canvas as filling it once. */
  lemma FillRectIdempotent(c: Canvas, bounds: Rect)
    requires c.Valid() && c.state.clip.NonEmpty()
    ensures FillRect(FillRect(c, bounds), bounds) == FillRect(c, bounds)
  {
    var once := FillRect(c, bounds);
    var twice := FillRect(once, bounds);
    BufferExt(twice.buffer, once.buffer);
  }

  /** Nothing `fill_rect` writes lies outside the clip region or outside `bounds`. */
  lemma FillRectStaysInside(c: Canvas, bounds: Rect, p: Point)
    requires c.Valid() && c.state.clip.NonEmpty() && OnScreen(p)
    requires !IsInside(p, bounds) || !IsInside(p, c.state.clip)
    ensures At(FillRect(c, bounds), p) == At(c, p)
  {
  }

  /** The last column and last row of the clip region are never filled. */
  lemma FillRectSkipsLastRowAndColumn(c: Canvas, bounds: Rect, p: Point)
    requires c.Valid() && c.state.clip.NonEmpty() && OnScreen(p)
    requires p.x + 1 == c.state.clip.max.x || p.y + 1 == c.state.clip.max.y
    ensures At(FillRect(c, bounds), p) == At(c, p)
  {
  }

  /** The two horizontal edge lines `trace_rect` draws, on rows `min.y` and `max.y`. */
  predicate HEdgesCover(clip: Rect, bounds: Rect, p: Point)
    requires bounds.max.x >= 1
  {
    var xs := InclusiveRange(bounds.min.x, bounds.max.x - 1);
    HLineCovers(clip, xs, bounds.min.y, p) || HLineCovers(clip, xs, bounds.max.y, p)
  }

  /** The two vertical edge lines `trace_rect` draws, on columns `min.x` and `max.x`. */
  predicate VEdgesCover(clip: Rect, bounds: Rect, p: Point)
    requires bounds.max.y >= 1
  {
    var ys := InclusiveRange(bounds.min.y, bounds.max.y - 1);
    VLineCovers(clip, bounds.min.x, ys, p) || VLineCovers(clip, bounds.max.x, ys, p)
  }

  /** The four edge lines `trace_rect` draws. */
  predicate OutlineCovers(clip: Rect, bounds: Rect, p: Point)
    requires bounds.max.x >= 1 && bounds.max.y >= 1
  {
    HEdgesCover(clip, bounds, p) || VEdgesCover(clip, bounds, p)
  }

  /** `trace_rect` computes `max - 1` on both axes before drawing, and then each of its four lines must not panic. */
  predicate TraceRectSafe(clip: Rect, bounds: Rect)
  {
    && bounds.max.x >= 1 && bounds.max.y >= 1
    && var xs := InclusiveRange(bounds.min.x, bounds.max.x - 1);
       var ys := InclusiveRange(bounds.min.y, bounds.max.y - 1);
       && HLineSafe(clip, xs, bounds.min.y) && HLineSafe(clip, xs, bounds.max.y)
       && VLineSafe(clip, bounds.min.x, ys) && VLineSafe(clip, bounds.max.x, ys)
  }

  /** The first loop of `trace_rect`. */
  function DrawHorizontalEdges(c: Canvas, bounds: Rect): (r: Canvas)
    requires c.Valid() && TraceRectSafe(c.state.clip, bounds)
    ensures r.Valid() && r.state == c.state && r.saved == c.saved
    ensures forall p :: OnScreen(p) ==>
              At(r, p) == if HEdgesCover(c.state.clip, bounds, p) then c.state.fg else At(c, p)
  {
    var xs := InclusiveRange(bounds.min.x, bounds.max.x - 1);
    DrawHorizontalLine(DrawHorizontalLine(c, xs, bounds.min.y), xs, bounds.max.y)
  }

  /** The second loop of `trace_rect`. */
  function DrawVerticalEdges(c: Canvas, bounds: Rect): (r: Canvas)
    requires c.Valid() && TraceRectSafe(c.state.clip, bounds)
    ensures r.Valid() && r.state == c.state && r.saved == c.saved
    ensures forall p :: OnScreen(p) ==>
              At(r, p) == if VEdgesCover(c.state.clip, bounds, p) then c.state.fg else At(c, p)
  {
    var ys := InclusiveRange(bounds.min.y, bounds.max.y - 1);
    DrawVerticalLine(DrawVerticalLine(c, bounds.min.x, ys), bounds.max.x, ys)
  }

  /**
   * `Canvas::trace_rect`: horizontal lines on rows `min.y` and `max.y`, then
   * vertical lines on columns `min.x` and `max.x`. The bottom and right edges
   * sit on the exclusive corner, one past the rectangle's last pixel.
   */
  function TraceRect(c: Canvas, bounds: Rect): (r: Canvas)
    requires c.Valid() && TraceRectSafe(c.state.clip, bounds)
    ensures r.Valid() && r.state == c.state && r.saved == c.saved
    ensures forall p :: OnScreen(p) ==>
              At(r, p) == if OutlineCovers(c.state.clip, bounds, p) then c.state.fg else At(c, p)
  {
    DrawVerticalEdges(DrawHorizontalEdges(c, bounds), bounds)
  }

  /**
   * Every pixel `trace_rect` changes lies on one of the rectangle's four edge
   * lines, except that a vertical edge on column 480 lands on column 0, one
   * row down.
   */
  lemma TraceRectOnlyOutline(c: Canvas, bounds: Rect, p: Point)
    requires c.Valid() && bounds.Normal() && TraceRectSafe(c.state.clip, bounds) && OnScreen(p)
    requires At(TraceRect(c, bounds), p) != At(c, p)
    ensures || (&& (p.y == bounds.min.y || p.y == bounds.max.y || p.x == bounds.min.x || p.x == bounds.max.x)
                && bounds.min.x <= p.x <= bounds.max.x && bounds.min.y <= p.y <= bounds.max.y)
            || (WIDTH in {bounds.min.x, bounds.max.x} && p.x == 0 && bounds.min.y + 1 <= p.y <= bounds.max.y)
    ensures bounds.max.x < WIDTH ==> bounds.min.x <= p.x <= bounds.max.x && bounds.min.y <= p.y <= bounds.max.y
  {
    var clip := c.state.clip;
    var ys := InclusiveRange(bounds.min.y, bounds.max.y - 1);
    assert OutlineCovers(clip, bounds, p);
    if !HEdgesCover(clip, bounds, p) {
      assert VLineCovers(clip, bounds.min.x, ys, p) || VLineCovers(clip, bounds.max.x, ys, p);
    }
  }

  /**
   * Under the default clip, tracing a rectangle whose right edge is column 480
   * paints column 0 of the rows below the edge's rows.
   */
  lemma TraceRectWrapsRightEdge(c: Canvas, bounds: Rect, y: nat)
    requires c.Valid() && c.state.clip == FULL_CLIP && bounds.NonEmpty()
    requires bounds.max.x == WIDTH && bounds.max.y < HEIGHT && bounds.min.y <= y < bounds.max.y
    ensures TraceRectSafe(FULL_CLIP, bounds)
    ensures At(TraceRect(c, bounds), Point(0, y + 1)) == c.state.fg
  {
  }

  /**
   * One boundary point of the Bresenham circle of radius `r` centred at
   * `(0, r)`: its horizontal offset from the centre and its line number in
   * `[0, 2r]`.
   */
  datatype CirclePoint = CirclePoint(dx: int32, line: nat)

  /** The line numbers the circle iterator yields index the `2r + 1` lines. */
  predicate BresenhamLines(radius: nat, points: seq<CirclePoint>)
  {
    forall k :: 0 <= k < |points| ==> points[k].line <= 2 * radius
  }

  /** `center.x as i32 + dx` neither wraps in the cast nor overflows `i32`. */
  predicate NoI32Overflow(cx: nat, points: seq<CirclePoint>)
  {
    cx < 0x8000_0000 && forall k :: 0 <= k < |points| ==> -0x8000_0000 <= cx + points[k].dx < 0x8000_0000
  }

  /** No boundary point reaches left of column 0, where `as u32` would wrap. */
  predicate NoLeftWrap(cx: nat, points: seq<CirclePoint>)
  {
    forall k :: 0 <= k < |points| ==> cx + points[k].dx >= 0
  }

  /** Point `k` moves the start of its line, and no later point moves the start of the same line. */
  predicate LastStartSetter(points: seq<CirclePoint>, k: nat)
    requires k < |points|
  {
    points[k].dx < 0 && forall j :: k < j < |points| ==> !(points[j].line == points[k].line && points[j].dx < 0)
  }

  /** Point `k` moves the end of its line, and no later point moves the end of the same line. */
  predicate LastEndSetter(points: seq<CirclePoint>, k: nat)
    requires k < |points|
  {
    points[k].dx >= 0 && forall j :: k < j < |points| ==> !(points[j].line == points[k].line && points[j].dx >= 0)
  }

  /**
   * Each end of line `i` is set by the last point on that line that moves it
   * (to `(cx as i32 + dx) as u32`), and is kept when no point moves it.
   */
  lemma {:induction false} ApplyCirclePointsLastWins(lines: seq<InclusiveRange>, cx: nat, points: seq<CirclePoint>, i: nat)
    requires forall k :: 0 <= k < |points| ==> points[k].line < |lines|
    requires NoI32Overflow(cx, points) && i < |lines|
    ensures (forall k :: 0 <= k < |points| ==> !(points[k].line == i && points[k].dx < 0)) ==>
              ApplyCirclePoints(lines, cx, points)[i].start == lines[i].start
    ensures forall k :: 0 <= k < |points| && points[k].line == i && LastStartSetter(points, k) ==>
              ApplyCirclePoints(lines, cx, points)[i].start == WrapU32(cx + points[k].dx)
    ensures (forall k :: 0 <= k < |points| ==> !(points[k].line == i && points[k].dx >= 0)) ==>
              ApplyCirclePoints(lines, cx, points)[i].end == lines[i].end
    ensures forall k :: 0 <= k < |points| && points[k].line == i && LastEndSetter(points, k) ==>
              ApplyCirclePoints(lines, cx, points)[i].end == cx + points[k].dx
    decreases |points|
  {
    if |points| > 0 {
      var lines' := ApplyCirclePoint(lines, cx, points[0]);
      var rest := points[1..];
      assert forall k :: 0 <= k < |rest| ==> rest[k] == points[k + 1];
      ApplyCirclePointsLastWins(lines', cx, rest, i);
      var r := ApplyCirclePoints(lines, cx, points);
      assert r == ApplyCirclePoints(lines', cx, rest);
      forall k | 0 <= k < |points| && points[k].line == i && LastStartSetter(points, k)
        ensures r[i].start == WrapU32(cx + points[k].dx)
      {
        if k > 0 {
          assert LastStartSetter(rest, k - 1);
        }
      }
      forall k | 0 <= k < |points| && points[k].line == i && LastEndSetter(points, k)
        ensures r[i].end == cx + points[k].dx
      {
        if k > 0 {
          assert LastEndSetter(rest, k - 1);
        }
      }
    }
  }

  /**
   * The per-line spans of `fill_circle`: every line starts as `(cx, cx)`;
   * a boundary point with negative `dx` moves its line's left end, any other
   * moves its right end, to `(cx as i32 + dx) as u32`. The last point seen on
   * a line wins.
   */
  function CircleSpans(cx: nat, radius: nat, points: seq<CirclePoint>): (lines: seq<InclusiveRange>)
    requires BresenhamLines(radius, points) && NoI32Overflow(cx, points)
    ensures |lines| == 2 * radius + 1
    ensures EndsRightOf(lines, cx)
    ensures NoLeftWrap(cx, points) ==> StartsLeftOf(lines, cx)
    ensures forall i :: 0 <= i < |lines| && NoPointOnLine(points, i) ==> lines[i] == InclusiveRange(cx, cx)
  {
    ApplyCirclePoints(seq(2 * radius + 1, _ => InclusiveRange(cx, cx)), cx, points)
  }

  /**
   * Each span of `fill_circle` is `(cx, cx)` with each end replaced by the
   * last boundary point on its line that moves that end: the last point
   * seen, not the outermost one.
   */
  lemma CircleSpansLastWins(cx: nat, radius: nat, points: seq<CirclePoint>, i: nat)
    requires BresenhamLines(radius, points) && NoI32Overflow(cx, points) && i <= 2 * radius
    ensures (forall k :: 0 <= k < |points| ==> !(points[k].line == i && points[k].dx < 0)) ==>
              CircleSpans(cx, radius, points)[i].start == cx
    ensures forall k :: 0 <= k < |points| && points[k].line == i && LastStartSetter(points, k) ==>
              CircleSpans(cx, radius, points)[i].start == WrapU32(cx + points[k].dx)
    ensures (forall k :: 0 <= k < |points| ==> !(points[k].line == i && points[k].dx >= 0)) ==>
              CircleSpans(cx, radius, points)[i].end == cx
    ensures forall k :: 0 <= k < |points| && points[k].line == i && LastEndSetter(points, k) ==>
              CircleSpans(cx, radius, points)[i].end == cx + points[k].dx
  {
    ApplyCirclePointsLastWins(seq(2 * radius + 1, _ => InclusiveRange(cx, cx)), cx, points, i);
  }

  /** Every line ends at or right of column `cx`. */
  predicate EndsRightOf(lines: seq<InclusiveRange>, cx: nat)
  {
    forall i :: 0 <= i < |lines| ==> cx <= lines[i].end
  }

  /** Every line starts at or left of column `cx`. */
  predicate StartsLeftOf(lines: seq<InclusiveRange>, cx: nat)
  {
    forall i :: 0 <= i < |lines| ==> lines[i].start <= cx
  }

  predicate NoPointOnLine(points: seq<CirclePoint>, i: nat)
  {
    forall k :: 0 <= k < |points| ==> points[k].line != i
  }

  /** The effect of one boundary point on the line it lies on. */
  function ApplyCirclePoint(lines: seq<InclusiveRange>, cx: nat, pt: CirclePoint): (r: seq<InclusiveRange>)
    requires pt.line < |lines| && -0x8000_0000 <= cx + pt.dx < 0x8000_0000
    ensures |r| == |lines|
    ensures pt.dx < 0 ==> r[pt.line] == InclusiveRange(WrapU32(cx + pt.dx), lines[pt.line].end)
    ensures pt.dx >= 0 ==> r[pt.line] == InclusiveRange(lines[pt.line].start, cx + pt.dx)
    ensures EndsRightOf(lines, cx) ==> EndsRightOf(r, cx)
    ensures StartsLeftOf(lines, cx) && cx + pt.dx >= 0 ==> StartsLeftOf(r, cx)
    ensures forall i :: 0 <= i < |r| && i != pt.line ==> r[i] == lines[i]
  {
    var x := WrapU32(cx + pt.dx);
    if pt.dx < 0 then lines[pt.line := lines[pt.line].(start := x)]
    else lines[pt.line := lines[pt.line].(end := x)]
  }

  function ApplyCirclePoints(lines: seq<InclusiveRange>, cx: nat, points: seq<CirclePoint>): (r: seq<InclusiveRange>)
    requires forall k :: 0 <= k < |points| ==> points[k].line < |lines|
    requires NoI32Overflow(cx, points)
    ensures |r| == |lines|
    ensures EndsRightOf(lines, cx) ==> EndsRightOf(r, cx)
    ensures StartsLeftOf(lines, cx) && NoLeftWrap(cx, points) ==> StartsLeftOf(r, cx)
    ensures forall i :: 0 <= i < |r| && NoPointOnLine(points, i) ==> r[i] == lines[i]
    decreases |points|
  {
    if |points| == 0 then lines
    else
      var r := ApplyCirclePoints(ApplyCirclePoint(lines, cx, points[0]), cx, points[1..]);
      assert forall i :: NoPointOnLine(points, i) ==> NoPointOnLine(points[1..], i) && points[0].line != i;
      r
  }

  /** Line `p.y - y0` of `lines` (for `p.y` in `[y0 + from, y0 + |lines|)`) covers `p`. */
  predicate SpansCover(clip: Rect, lines: seq<InclusiveRange>, y0: nat, from: nat, p: Point)
  {
    y0 + from <= p.y < y0 + |lines| && HLineCovers(clip, lines[p.y - y0], p.y, p)
  }

  /** Draws line `j` of `lines` on row `y0 + j`, for `j` from `from` up. */
  function DrawSpans(c: Canvas, lines: seq<InclusiveRange>, y0: nat, from: nat): (r: Canvas)
    requires c.Valid() && from <= |lines|
    requires forall j :: from <= j < |lines| ==> HLineSafe(c.state.clip, lines[j], y0 + j)
    ensures r.Valid() && r.state == c.state && r.saved == c.saved
    ensures forall p :: OnScreen(p) ==>
              At(r, p) == if SpansCover(c.state.clip, lines, y0, from, p) then c.state.fg else At(c, p)
    decreases |lines| - from
  {
    if from == |lines| then c
    else DrawSpans(DrawHorizontalLine(c, lines[from], y0 + from), lines, y0, from + 1)
  }

  /** No line of the circle makes `draw_horizontal_line` panic. */
  predicate CircleSafe(clip: Rect, center: Point, radius: nat, points: seq<CirclePoint>)
  {
    && BresenhamLines(radius, points) && NoI32Overflow(center.x, points) && center.y >= radius
    && var lines := CircleSpans(center.x, radius, points);
       forall j :: 0 <= j < |lines| ==> HLineSafe(clip, lines[j], center.y - radius + j)
  }

  /**
   * `Canvas::fill_circle`, given the output of the external Bresenham circle
   * iterator as `points`. Radius 0 first sets the centre pixel and then,
   * since there is no early return, still draws its one-pixel line. Line `j`
   * is drawn on row `center.y - radius + j`, computed in `u32`, so the centre
   * must be at least `radius` rows down.
   */
  function FillCircle(c: Canvas, center: Point, radius: nat, points: seq<CirclePoint>): (r: Canvas)
    requires c.Valid() && CircleSafe(c.state.clip, center, radius, points)
    ensures r.Valid() && r.state == c.state && r.saved == c.saved
    ensures forall p :: OnScreen(p) ==>
              At(r, p) == if || (radius == 0 && p == center && IsInside(center, c.state.clip))
                             || SpansCover(c.state.clip, CircleSpans(center.x, radius, points), center.y - radius, 0, p)
                          then c.state.fg else At(c, p)
  {
    var c' := if radius == 0 then SetPixel(c, center) else c;
    DrawSpans(c', CircleSpans(center.x, radius, points), center.y - radius, 0)
  }

  /** Without wrap-around, the centre column is painted on each of the `2r + 1` rows that lies in the clip region. */
  lemma FillCircleCoversCentreColumn(c: Canvas, center: Point, radius: nat, points: seq<CirclePoint>, y: nat)
    requires c.Valid() && CircleSafe(c.state.clip, center, radius, points)
    requires NoLeftWrap(center.x, points)
    requires center.y - radius <= y <= center.y + radius && IsInside(Point(center.x, y), c.state.clip)
    ensures At(FillCircle(c, center, radius, points), Point(center.x, y)) == c.state.fg
  {

  }

  /** A circle only ever paints within its `2r + 1` rows and within the clip region's columns. */
  lemma FillCircleStaysInRows(c: Canvas, center: Point, radius: nat, points: seq<CirclePoint>, p: Point)
    requires c.Valid() && CircleSafe(c.state.clip, center, radius, points) && OnScreen(p)
    requires p.y + radius < center.y || center.y + radius < p.y || !(c.state.clip.min.x <= p.x < c.state.clip.max.x)
    ensures At(FillCircle(c, center, radius, points), p) == At(c, p)
  {
  }

  /**
   * At the left edge the span's left end wraps: for radius 1 centred in
   * column 0, the boundary point `(-1, 1)` sets the middle line's left end to
   * `0xFFFF_FFFF`, past its right end, and `clamp_range`'s assert fails.
   */
  lemma FillCircleWrapsAtLeftEdge()
    ensures var points := [CirclePoint(1, 1), CirclePoint(0, 2), CirclePoint(-1, 1), CirclePoint(0, 0)];
            var lines := CircleSpans(0, 1, points);
            && lines[1] == InclusiveRange(0xFFFF_FFFF, 1)
            && !CircleSafe(FULL_CLIP, Point(0, 40), 1, points)
  {

  }

  /** `Canvas::draw_header`: sets the header colour and fills the header band. */
  function DrawHeader(c: Canvas): (r: Canvas)
    requires c.Valid() && c.state.clip.NonEmpty()
    ensures r.Valid() && r.state == c.state.(fg := HEADER_COLOR) && r.saved == c.saved
    ensures forall p :: OnScreen(p) ==>
              At(r, p) == if p.y < HEADER_HEIGHT && Fillable(c.state.clip, p) then HEADER_COLOR else At(c, p)
  {
    FillRect(c.(state := c.state.(fg := HEADER_COLOR)), HEADER_CLIP)
  }
}

=== FILE: fonts.dfy ===
/**
 * The pre-rendered fonts of src/canvas/font.rs: one glyph per printable
 * ASCII character, glyph lookup with a fallback, the opacity quantisation
 * applied to every glyph pixel, and the loader's name table with its two
 * aliases. Rasterising a glyph (font files, hinting, the square-root
 * brightening) is floating-point work done by external crates; it enters
 * the model as a function from a font face, point size and character to the
 * brightened pixels.
 */
module Fonts {
  import opened Types

  /** The first and last pre-rendered characters, `' '` and `'~'`. */
  const FIRST_CHAR: nat := 32
  const LAST_CHAR: nat := 126

  /** `NUM_CHARS`: `end - start` of an inclusive range, which is one less than the number of characters in it. */
  const NUM_CHARS: nat := LAST_CHAR - FIRST_CHAR

  /** The number of glyphs a font actually holds. */
  const GLYPH_COUNT: nat := LAST_CHAR - FIRST_CHAR + 1

  /** `255 / 3`: the step between the four opacity levels. */
  const OPACITY_STEP: nat := 255 / 3

  /** The pixel quantisation of `RasterizedGlyph::new`: round down to a multiple of 85. */
  function Quantize(v: uint8): (r: uint8)
    ensures r == 0 || r == 85 || r == 170 || r == 255
    ensures r <= v && v - r < OPACITY_STEP
    ensures r == v <==> v % OPACITY_STEP == 0
  {
    v / OPACITY_STEP * OPACITY_STEP
  }

  /** Quantising twice is quantising once. */
  lemma QuantizeIdempotent(v: uint8)
    ensures Quantize(Quantize(v)) == Quantize(v)
  {
  }

  /** Quantisation never reverses the order of two opacities. */
  lemma QuantizeMonotonic(a: uint8, b: uint8)
    requires a <= b
    ensures Quantize(a) <= Quantize(b)
  {
  }

  /** The bundled font files. */
  datatype FontFace = MonospaceFace | ProportionalFace

  /** The brightened coverage bitmap the rasteriser produces for one character of a face at a point size. */
  type Rasterizer = (FontFace, nat, char) -> seq<uint8>

  /** The part of `RasterizedGlyph` the integer logic touches: which character it is and its bitmap. */
  datatype Glyph = Glyph(character: char, bitmap: seq<uint8>)

  predicate Quantized(bitmap: seq<uint8>)
  {
    forall i :: 0 <= i < |bitmap| ==> bitmap[i] % OPACITY_STEP == 0
  }

  /** `RasterizedGlyph::new`, from the rasteriser's bitmap: every pixel quantised. */
  function NewGlyph(character: char, raw: seq<uint8>): (g: Glyph)
    ensures g.character == character && |g.bitmap| == |raw|
    ensures Quantized(g.bitmap)
    ensures forall i :: 0 <= i < |raw| ==> g.bitmap[i] <= raw[i] < g.bitmap[i] + OPACITY_STEP
  {
    Glyph(character, seq(|raw|, i requires 0 <= i < |raw| => Quantize(raw[i])))
  }

  /** `PreRenderedFont`: the face and size it was rendered from, and its glyphs. */
  datatype PreRenderedFont = PreRenderedFont(face: FontFace, pointSize: nat, characters: seq<Glyph>)

  /** The character at position `i` of the pre-rendered range. */
  function CharAt(i: nat): char
    requires i < GLYPH_COUNT
  {
    (FIRST_CHAR + i) as char
  }

  /** `PreRenderedFont::new`: one glyph for each character of `' '..='~'`, in order. */
  function NewFont(face: FontFace, pointSize: nat, raster: Rasterizer): (f: PreRenderedFont)
    ensures f.face == face && f.pointSize == pointSize
    ensures |f.characters| == GLYPH_COUNT
    ensures forall i :: 0 <= i < GLYPH_COUNT ==> f.characters[i] == NewGlyph(CharAt(i), raster(face, pointSize, CharAt(i)))
  {
    PreRenderedFont(face, pointSize, seq(GLYPH_COUNT, i requires 0 <= i < GLYPH_COUNT =>
      NewGlyph(CharAt(i), raster(face, pointSize, CharAt(i)))))
  }

  /** `NUM_CHARS` undercounts the glyphs a font holds by one. */
  lemma NumCharsUndercounts(face: FontFace, pointSize: nat, raster: Rasterizer)
    ensures NUM_CHARS == 94
    ensures |NewFont(face, pointSize, raster).characters| == NUM_CHARS + 1
  {
  }

  /**
   * `character as u8`: the byte that differs from the code point by a
   * multiple of 256; a code point below 256 is its own byte.
   */
  function LowByte(c: char): (b: uint8)
    ensures b <= c as int && (c as int - b) % 256 == 0
    ensures c as int < 256 ==> b == c as int
  {
    (c as int) % 256
  }

  /** `b'.' - 32`: the index of the replacement glyph. */
  const REPLACEMENT_INDEX: nat := '.' as int - FIRST_CHAR

  /**
   * `PreRenderedFont::glyph_for_char`. The index is the low byte of the
   * character minus 32, computed in `u8`, which panics below 32. An index
   * past the end falls back to the `'.'` glyph, which is looked up (and
   * must exist) even when it is not needed.
   */
  function GlyphForChar(f: PreRenderedFont, c: char): (g: Glyph)
    requires REPLACEMENT_INDEX < |f.characters|
    requires LowByte(c) >= FIRST_CHAR
    ensures LowByte(c) - FIRST_CHAR < |f.characters| ==> g == f.characters[LowByte(c) - FIRST_CHAR]
    ensures LowByte(c) - FIRST_CHAR >= |f.characters| ==> g == f.characters[REPLACEMENT_INDEX]
  {
    var fallback := f.characters[REPLACEMENT_INDEX];
    var idx := LowByte(c) - FIRST_CHAR;
    if idx < |f.characters| then f.characters[idx] else fallback
  }

  /** Every printable ASCII character gets its own glyph back. */
  lemma GlyphForPrintable(face: FontFace, pointSize: nat, raster: Rasterizer, c: char)
    requires FIRST_CHAR <= c as int <= LAST_CHAR
    ensures GlyphForChar(NewFont(face, pointSize, raster), c).character == c
  {

  }

  /** Bytes 127 to 255 have no glyph of their own and get the `'.'` glyph. */
  lemma GlyphForHighByte(face: FontFace, pointSize: nat, raster: Rasterizer, c: char)
    requires LAST_CHAR < LowByte(c)
    ensures GlyphForChar(NewFont(face, pointSize, raster), c).character == '.'
  {

  }

  /** A code point of 256 or more is looked up by its low byte alone. */
  lemma GlyphForCharAliasesLowByte(f: PreRenderedFont, c: char)
    requires REPLACEMENT_INDEX < |f.characters| && LowByte(c) >= FIRST_CHAR
    ensures GlyphForChar(f, c) == GlyphForChar(f, LowByte(c) as char)
  {
  }

  /** `FONT_MAP`: the two bundled fonts with their names and point sizes. */
  const FONT_MAP: seq<(string, nat, FontFace)> := [("NotoSansMono", 49, MonospaceFace), ("NotoSansLatin", 54, ProportionalFace)]

  /** `FontLoader`: font name to pre-rendered font. */
  datatype FontLoader = FontLoader(fonts: map<string, PreRenderedFont>)

  /** Renders and inserts each entry of `entries`, in order. */
  function InsertFonts(fonts: map<string, PreRenderedFont>, entries: seq<(string, nat, FontFace)>, raster: Rasterizer): (r: map<string, PreRenderedFont>)
    ensures r.Keys == fonts.Keys + set e | e in entries :: e.0
    ensures forall name :: name in r && (forall e :: e in entries ==> e.0 != name) ==> r[name] == fonts[name]
    decreases |entries|
  {
    if |entries| == 0 then fonts
    else
      var (name, size, face) := entries[0];
      var r := InsertFonts(fonts[name := NewFont(face, size, raster)], entries[1..], raster);
      assert forall e :: e in entries <==> e == entries[0] || e in entries[1..];
      r
  }

  /**
   * The font stored under an entry's name is the one rendered from the last
   * entry carrying that name, as repeated `HashMap::insert` leaves it.
   */
  lemma {:induction false} InsertFontsLastWins(fonts: map<string, PreRenderedFont>, entries: seq<(string, nat, FontFace)>,
                                               raster: Rasterizer, i: nat)
    requires i < |entries| && LastWithName(entries, i)
    ensures InsertFonts(fonts, entries, raster)[entries[i].0] == NewFont(entries[i].2, entries[i].1, raster)
    decreases |entries|
  {
    var (name, size, face) := entries[0];
    var fonts' := fonts[name := NewFont(face, size, raster)];
    if i == 0 {
      forall e | e in entries[1..] ensures e.0 != name {
        var j :| 0 <= j < |entries[1..]| && entries[1..][j] == e;
        assert entries[j + 1] == e;
      }
    } else {
      assert entries[1..][i - 1] == entries[i];
      assert LastWithName(entries[1..], i - 1);
      InsertFontsLastWins(fonts', entries[1..], raster, i - 1);
    }
  }

  /** No entry after position `i` has the name of entry `i`: the `HashMap::insert` that wins. */
  predicate LastWithName(entries: seq<(string, nat, FontFace)>, i: nat)
    requires i < |entries|
  {
    forall j :: i < j < |entries| ==> entries[j].0 != entries[i].0
  }

  /** `FontLoader::new`: the bundled fonts under their own names, plus the public aliases. */
  function NewFontLoader(raster: Rasterizer): (l: FontLoader)
    ensures l.fonts.Keys == {"NotoSansMono", "NotoSansLatin", "monospace", "proportional"}
    ensures l.fonts["monospace"] == l.fonts["NotoSansMono"] == NewFont(MonospaceFace, 49, raster)
    ensures l.fonts["proportional"] == l.fonts["NotoSansLatin"] == NewFont(ProportionalFace, 54, raster)
  {
    var fonts := InsertFonts(map[], FONT_MAP, raster);
    assert fonts.Keys == {"NotoSansMono", "NotoSansLatin"} by {
      assert FONT_MAP[0].0 == "NotoSansMono" && FONT_MAP[1].0 == "NotoSansLatin";
      assert forall e :: e in FONT_MAP ==> e == FONT_MAP[0] || e == FONT_MAP[1];
    }
    var fonts := fonts["monospace" := fonts["NotoSansMono"]];
    FontLoader(fonts["proportional" := fonts["NotoSansLatin"]])
  }

  /** `FontLoader::get`. */
  function Get(l: FontLoader, name: string): (r: Option<PreRenderedFont>)
    ensures r.Some? <==> name in l.fonts
    ensures r.Some? ==> r.value == l.fonts[name]
  {
    if name in l.fonts then Some(l.fonts[name]) else None
  }

  /** The loader answers exactly four names, each alias with its font, and nothing else. */
  lemma LoaderNames(raster: Rasterizer, name: string)
    ensures var l := NewFontLoader(raster);
            && Get(l, "monospace") == Get(l, "NotoSansMono") == Some(NewFont(MonospaceFace, 49, raster))
            && Get(l, "proportional") == Get(l, "NotoSansLatin") == Some(NewFont(ProportionalFace, 54, raster))
            && (Get(l, name).Some? <==> name in {"NotoSansMono", "NotoSansLatin", "monospace", "proportional"})
  {
  }
}

=== FILE: frame_timer.dfy ===
/**
 * The 60 Hz render timer of src/lib.rs. Time is a monotonic clock in
 * nanoseconds; each read of `Instant::now()` is a parameter. The event
 * loop's control flow is reduced to the instant it is told to wake at.
 */
module FrameTimer {
  import opened Types
  import opened Compositor

  const NANOS_PER_SEC: nat := 1_000_000_000

  /** `Duration::from_secs(1) / 60`: integer division of one second, in nanoseconds. */
  const FRAME_PERIOD: nat := NANOS_PER_SEC / 60

  /** The period truncates: sixty periods fall short of a second by 40 ns. */
  lemma FramePeriodValue()
    ensures FRAME_PERIOD == 16_666_666
    ensures 60 * FRAME_PERIOD <= NANOS_PER_SEC < 60 * (FRAME_PERIOD + 1)
    ensures NANOS_PER_SEC - 60 * FRAME_PERIOD == 40
  {
  }

  /**
   * The deadline rule of `Simulator::schedule_render`: one period after
   * `last`, unless that instant has already passed at `now`, in which case
   * one period after `now`. The deadline is never in the past and never
   * less than a period after `last`.
   */
  function NextRender(last: nat, now: nat): (next: nat)
    ensures next == last + FRAME_PERIOD || next == now + FRAME_PERIOD
    ensures next >= now && next >= last + FRAME_PERIOD
    ensures last + FRAME_PERIOD >= now ==> next == last + FRAME_PERIOD
    ensures last + FRAME_PERIOD < now ==> next == now + FRAME_PERIOD
  {
    var next := last + FRAME_PERIOD;
    if next < now then now + FRAME_PERIOD else next
  }

  /**
   * The deadline after the timer has fired once per entry of `clocks`,
   * starting from deadline `base`: each fire reschedules from the instant
   * that was requested, reading the clock once.
   */
  function Reschedule(base: nat, clocks: seq<nat>): (deadline: nat)
    ensures deadline >= base + |clocks| * FRAME_PERIOD
    ensures |clocks| > 0 ==> deadline >= clocks[|clocks| - 1]
    decreases |clocks|
  {
    if |clocks| == 0 then base
    else Reschedule(NextRender(base, clocks[0]), clocks[1..])
  }

  /** The clock at the `k`-th fire is at most one period past that fire's requested instant. */
  predicate OnTime(base: nat, clocks: seq<nat>)
  {
    forall k :: 0 <= k < |clocks| ==> clocks[k] <= base + (k + 1) * FRAME_PERIOD
  }

  /** Fires that are never a whole period late keep the deadlines on the grid `base + k * FRAME_PERIOD`: no drift. */
  lemma {:induction false} NoDrift(base: nat, clocks: seq<nat>)
    requires OnTime(base, clocks)
    ensures Reschedule(base, clocks) == base + |clocks| * FRAME_PERIOD
    decreases |clocks|
  {
    if |clocks| > 0 {
      var next := NextRender(base, clocks[0]);
      assert next == base + FRAME_PERIOD;
      var rest := clocks[1..];
      forall k | 0 <= k < |rest|
        ensures rest[k] <= next + (k + 1) * FRAME_PERIOD
      {
        assert rest[k] == clocks[k + 1];
      }
      NoDrift(next, rest);
    }
  }

  /** The relevant `winit` start causes; every other cause is `Other`. */
  datatype StartCause = Init | ResumeTimeReached(requestedResume: nat) | Other

  /**
   * The part of `Simulator` the timer uses: the display window once it is
   * open, the instant of the last timer fire, and the instant the event
   * loop is set to wake at.
   */
  datatype Simulator = Simulator(window: Option<Window>, lastFrameTime: Option<nat>, wakeAt: Option<nat>)

  /** `Simulator::new`: no window, no frame yet, no timer. */
  function NewSimulator(): (s: Simulator)
    ensures s.window.None? && s.lastFrameTime.None? && s.wakeAt.None?
  {
    Simulator(None, None, None)
  }

  /**
   * `Simulator::new_events`. `first` and `second` are the two clock reads
   * the handler makes, in order. At `Init` the base is the first read and
   * `schedule_render` reads the clock again. When the timer fires, the base
   * is the requested instant, the clock read inside `schedule_render` is the
   * first, the frame time is the second, and the window gets a redraw
   * queued. Any other cause changes nothing.
   */
  function NewEvents(s: Simulator, cause: StartCause, first: nat, second: nat): (r: Simulator)
    requires first <= second
    ensures cause.Init? ==>
              && r.wakeAt == Some(NextRender(first, second))
              && r.window == s.window && r.lastFrameTime == s.lastFrameTime
    ensures cause.ResumeTimeReached? ==>
              && r.wakeAt == Some(NextRender(cause.requestedResume, first))
              && r.lastFrameTime == Some(second)
              && r.window.Some? == s.window.Some?
              && (r.window.Some? ==> r.window.value == QueueRedraw(s.window.value))
    ensures cause.Other? ==> r == s
  {
    match cause
    case Init => s.(wakeAt := Some(NextRender(first, second)))
    case ResumeTimeReached(requested) =>
      var window := if s.window.Some? then Some(QueueRedraw(s.window.value)) else None;
      Simulator(window, Some(second), Some(NextRender(requested, first)))
    case Other => s
  }

  /**
   * A timer fire schedules the next wake one period after the instant it
   * asked for, not after the instant it actually ran, as long as it ran no
   * more than a period late; and an open window always has a frame scheduled.
   */
  lemma FireKeepsGrid(s: Simulator, requested: nat, first: nat, second: nat)
    requires first <= second && first <= requested + FRAME_PERIOD
    ensures var r := NewEvents(s, ResumeTimeReached(requested), first, second);
            && r.wakeAt == Some(requested + FRAME_PERIOD)
            && (r.window.Some? ==> r.window.value.hasScheduledFrame)
  {
  }

  /** A fire more than a period late restarts the grid one period after the clock read. */
  lemma LateFireRestartsGrid(s: Simulator, requested: nat, first: nat, second: nat)
    requires first <= second && requested + FRAME_PERIOD < first
    ensures NewEvents(s, ResumeTimeReached(requested), first, second).wakeAt == Some(first + FRAME_PERIOD)
  {
  }
}

=== FILE: geometry.dfy ===
/**
 * Points, rectangles and inclusive ranges of the rasteriser (src/canvas.rs).
 *
 * Coordinates are Rust `u32`s, modelled as `nat`. A `Rect` is half-open on
 * its `max` corner: it holds columns `[min.x, max.x)` and rows `[min.y, max.y)`.
 * Rust's `Ord::clamp` panics when its lower bound exceeds its upper bound and
 * `u32` subtraction panics below zero; both become preconditions here.
 */
module Geometry {
  import opened Types

  const WIDTH: nat := 480
  const HEIGHT: nat := 272
  const HEADER_HEIGHT: nat := 32
  /** `WIDTH * HEIGHT`, written out. */
  const BUFSZ: nat := 130560

  datatype Point = Point(x: nat, y: nat)

  datatype Rect = Rect(min: Point, max: Point)
  {
    /** The constructor's promise: the corners are in order on both axes. */
    predicate Normal()
    {
      min.x <= max.x && min.y <= max.y
    }

    /** At least one pixel: `region.max - 1` neither underflows nor drops below `region.min`. */
    predicate NonEmpty()
    {
      min.x < max.x && min.y < max.y
    }
  }

  /** An inclusive range `start..=end` of `u32` values. */
  datatype InclusiveRange = InclusiveRange(start: nat, end: nat)

  predicate InRange(v: nat, r: InclusiveRange)
  {
    r.start <= v <= r.end
  }

  /**
   * Half-open containment on both axes (`Point::is_inside`): a rect holds its
   * `min` corner unless it is empty, never holds its `max` corner, and an
   * empty rect holds nothing.
   */
  predicate IsInside(p: Point, region: Rect)
    ensures IsInside(p, region) ==> region.NonEmpty()
    ensures p == region.min ==> (IsInside(p, region) <==> region.NonEmpty())
    ensures p == region.max ==> !IsInside(p, region)
  {
    region.min.x <= p.x < region.max.x && region.min.y <= p.y < region.max.y
  }

  /** `Rect::new`: swaps each pair of coordinates that is out of order. */
  function NewRect(x0: nat, y0: nat, x1: nat, y1: nat): (r: Rect)
    ensures r.Normal()
    ensures (r.min.x == x0 && r.max.x == x1) || (r.min.x == x1 && r.max.x == x0)
    ensures (r.min.y == y0 && r.max.y == y1) || (r.min.y == y1 && r.max.y == y0)
  {
    var (lx, hx) := if x0 > x1 then (x1, x0) else (x0, x1);
    var (ly, hy) := if y0 > y1 then (y1, y0) else (y0, y1);
    Rect(Point(lx, ly), Point(hx, hy))
  }

  /** The whole surface. */
  const FULL_CLIP: Rect := Rect(Point(0, 0), Point(WIDTH, HEIGHT))
  /** The surface below the header band. */
  const USER_CLIP: Rect := Rect(Point(0, HEADER_HEIGHT), Point(WIDTH, HEIGHT))
  /** The header band. */
  const HEADER_CLIP: Rect := Rect(Point(0, 0), Point(WIDTH, HEADER_HEIGHT))

  /** The three named rects are built with `Rect::new` from already ordered corners. */
  lemma ClipConstants()
    ensures FULL_CLIP == NewRect(0, 0, WIDTH, HEIGHT)
    ensures USER_CLIP == NewRect(0, HEADER_HEIGHT, WIDTH, HEIGHT)
    ensures HEADER_CLIP == NewRect(0, 0, WIDTH, HEADER_HEIGHT)
  {
  }

  /** `Ord::clamp`, which panics unless `lo <= hi`. */
  function Clamp(v: nat, lo: nat, hi: nat): (r: nat)
    requires lo <= hi
    ensures lo <= r <= hi
    ensures lo <= v <= hi ==> r == v
    ensures v < lo ==> r == lo
    ensures hi < v ==> r == hi
  {
    if v < lo then lo else if v > hi then hi else v
  }

  /** `Point::clamp_to`: moves the point into `[region.min, region.max - 1]` on each axis. */
  function ClampTo(p: Point, region: Rect): (r: Point)
    requires region.NonEmpty()
    ensures region.min.x <= r.x < region.max.x && region.min.y <= r.y < region.max.y
    ensures IsInside(p, region) ==> r == p
    ensures p.x < region.min.x ==> r.x == region.min.x
    ensures region.max.x <= p.x ==> r.x == region.max.x - 1
    ensures region.min.x <= p.x < region.max.x ==> r.x == p.x
    ensures p.y < region.min.y ==> r.y == region.min.y
    ensures region.max.y <= p.y ==> r.y == region.max.y - 1
    ensures region.min.y <= p.y < region.max.y ==> r.y == p.y
  {
    Point(Clamp(p.x, region.min.x, region.max.x - 1), Clamp(p.y, region.min.y, region.max.y - 1))
  }

  /**
   * `Rect::clip_to`: clamps both corners into `[region.min, region.max - 1]`.
   * Because the exclusive `max` corner is clamped to `region.max - 1`, the
   * last row and column of the region never belong to the result.
   */
  function ClipTo(bounds: Rect, region: Rect): (r: Rect)
    requires region.NonEmpty()
    ensures bounds.Normal() ==> r.Normal()
    ensures region.min.x <= r.min.x && r.max.x < region.max.x
    ensures region.min.y <= r.min.y && r.max.y < region.max.y
    ensures forall p {:trigger IsInside(p, r)} ::
              IsInside(p, r) <==> IsInside(p, bounds) && IsInside(p, Shrunk(region))
  {
    Rect(ClampTo(bounds.min, region), ClampTo(bounds.max, region))
  }

  /**
   * Inside `clip` but off its last column and last row: the pixels `fill_rect`
   * can reach, since `clip_to` clamps the exclusive corner to `clip.max - 1`.
   */
  predicate Fillable(clip: Rect, p: Point)
  {
    IsInside(p, clip) && p.x + 1 < clip.max.x && p.y + 1 < clip.max.y
  }

  /** `region` without its last column and last row. */
  function Shrunk(region: Rect): (r: Rect)
    requires region.NonEmpty()
    ensures forall p {:trigger IsInside(p, r)} :: IsInside(p, r) <==> Fillable(region, p)
  {
    Rect(region.min, Point(region.max.x - 1, region.max.y - 1))
  }

  /** A rect that fits the 480x272 surface, as `set_clip_region` stores it. */
  predicate WithinSurface(r: Rect)
  {
    r.min.x < WIDTH && r.max.x < WIDTH && r.min.y < HEIGHT && r.max.y < HEIGHT
  }

  /**
   * The pixels of a rect in the order `Rect::pixels` yields them: column by
   * column (x outer), each column top to bottom. Position `i` of the
   * sequence holds column `min.x + i / height`, row `min.y + i % height`.
   */
  function Pixels(r: Rect): (ps: seq<Point>)
    ensures forall p {:trigger p in ps} :: p in ps <==> IsInside(p, r)
    ensures forall i, j :: 0 <= i < j < |ps| ==> ColumnMajorBefore(ps[i], ps[j])
  {
    if r.max.x <= r.min.x || r.max.y <= r.min.y then []
    else ColumnMajor(r.min, r.max.x - r.min.x, r.max.y - r.min.y)
  }

  /** The `w` columns of height `h` starting at `origin`, enumerated column by column. */
  function ColumnMajor(origin: Point, w: nat, h: nat): (ps: seq<Point>)
    requires 0 < h
    ensures forall p {:trigger p in ps} ::
              p in ps <==> origin.x <= p.x < origin.x + w && origin.y <= p.y < origin.y + h
    ensures forall i, j :: 0 <= i < j < |ps| ==> ColumnMajorBefore(ps[i], ps[j])
  {
    var ps := seq(w * h, i requires 0 <= i => Point(origin.x + i / h, origin.y + i % h));
    forall i | 0 <= i < |ps|
      ensures ps[i].x < origin.x + w
    {
      DivBelow(i, w, h);
    }
    forall p: Point | origin.x <= p.x < origin.x + w && origin.y <= p.y < origin.y + h
      ensures p in ps
    {
      var a, b := p.x - origin.x, p.y - origin.y;
      DivModOfMulAdd(a, b, h);
      MulAddBelow(a, b, w, h);
      assert ps[a * h + b] == p;
    }
    forall i, j | 0 <= i < j < |ps|
      ensures ColumnMajorBefore(ps[i], ps[j])
    {
      DivModOrder(i, j, h);
    }
    ps
  }

  /** Strict column-major order of two points. */
  predicate ColumnMajorBefore(p: Point, q: Point)
  {
    p.x < q.x || (p.x == q.x && p.y < q.y)
  }

  lemma MulStep(k: int, h: nat)
    requires k >= 1
    ensures k * h >= h
  {
    assert k * h == (k - 1) * h + h;
  }

  lemma MulSub(q: int, a: int, h: int)
    ensures (q - a) * h == q * h - a * h
  {
  }

  /** Euclidean division recovers the digits of `a * h + b` when `b < h`. */
  lemma DivModOfMulAdd(a: nat, b: nat, h: nat)
    requires b < h
    ensures (a * h + b) / h == a && (a * h + b) % h == b
  {
    var n := a * h + b;
    var q, m := n / h, n % h;
    assert q * h + m == a * h + b;
    MulSub(q, a, h);
    MulSub(a, q, h);
    if q > a {
      MulStep(q - a, h);
    } else if q < a {
      MulStep(a - q, h);
    }
  }

  lemma MulAddBelow(a: nat, b: nat, w: nat, h: nat)
    requires a < w && b < h
    ensures a * h + b < w * h
  {
    MulSub(w, a, h);
    MulStep(w - a, h);
  }

  lemma DivBelow(i: nat, w: nat, h: nat)
    requires i < w * h
    ensures i / h < w
  {
    var q := i / h;
    assert q * h + i % h == i;
    MulSub(q, w, h);
    if q > w {
      MulStep(q - w, h);
    }
  }

  /** Positions of a column-major enumeration with column height `h` are ordered column first. */
  lemma DivModOrder(i: nat, j: nat, h: nat)
    requires i < j && 0 < h
    ensures i / h < j / h || (i / h == j / h && i % h < j % h)
  {
    var qi, ri, qj, rj := i / h, i % h, j / h, j % h;
    assert i == qi * h + ri && j == qj * h + rj;
    MulSub(qi, qj, h);
    if qi > qj {
      MulStep(qi - qj, h);
    }
  }

  /**
   * `clamp_range`: the intersection of two inclusive ranges, or `None` when
   * they are disjoint. The source asserts that both ranges are non-empty.
   */
  function ClampRange(source: InclusiveRange, region: InclusiveRange): (r: Option<InclusiveRange>)
    requires source.start <= source.end
    requires region.start <= region.end
    ensures r.None? <==> source.end < region.start || region.end < source.start
    ensures r.Some? ==> r.value.start <= r.value.end
    ensures r.Some? ==> r.value == InclusiveRange(Max(source.start, region.start), Min(source.end, region.end))
    ensures forall v: nat :: InRange(v, source) && InRange(v, region) <==> r.Some? && InRange(v, r.value)
  {
    var begin := source.start;
    var end := source.end;
    if begin > region.end || end < region.start then None
    else
      var end' := if end >= region.end then region.end else end;
      var begin' := if begin < region.start then region.start else begin;
      Some(InclusiveRange(begin', end'))
  }

  /**
   * `Rect::from_sdk`: clamps negative SDK coordinates to 0, shifts y below
   * the header band, normalises, and turns the inclusive max corner into an
   * exclusive one.
   */
  function FromSdk(x0: int32, y0: int32, x1: int32, y1: int32): (r: Rect)
    requires y0 + HEADER_HEIGHT < 0x8000_0000 && y1 + HEADER_HEIGHT < 0x8000_0000
    ensures r.Normal()
    ensures r.min.x == Max(Min(x0, x1), 0) && r.max.x == Max(Max(x0, x1), 0) + 1
    ensures r.min.y == Max(Min(y0, y1) + HEADER_HEIGHT, 0) && r.max.y == Max(Max(y0, y1) + HEADER_HEIGHT, 0) + 1
  {
    var rect := NewRect(Max(x0, 0), Max(y0 + HEADER_HEIGHT, 0), Max(x1, 0), Max(y1 + HEADER_HEIGHT, 0));
    Rect(rect.min, Point(rect.max.x + 1, rect.max.y + 1))
  }

  /**
   * For on-screen SDK coordinates, a pixel lies in `FromSdk(x0, y0, x1, y1)`
   * exactly when it lies in the inclusive SDK rectangle shifted down by the header.
   */
  lemma FromSdkPixels(x0: int32, y0: int32, x1: int32, y1: int32, p: Point)
    requires 0 <= x0 && 0 <= x1 && 0 <= y0 + HEADER_HEIGHT < 0x8000_0000 && 0 <= y1 + HEADER_HEIGHT < 0x8000_0000
    ensures IsInside(p, FromSdk(x0, y0, x1, y1)) <==>
              Min(x0, x1) <= p.x <= Max(x0, x1) && Min(y0, y1) + HEADER_HEIGHT <= p.y <= Max(y0, y1) + HEADER_HEIGHT
  {
  }

  /**
   * A rectangle lying wholly left of the screen still covers column 0:
   * negative corners are clamped before the max corner is made exclusive.
   */
  lemma FromSdkOffscreenCoversColumnZero(x0: int32, y0: int32, x1: int32, y1: int32)
    requires x0 < 0 && x1 < 0
    requires 0 <= y0 + HEADER_HEIGHT < 0x8000_0000 && 0 <= y1 + HEADER_HEIGHT < 0x8000_0000
    ensures IsInside(Point(0, y0 + HEADER_HEIGHT), FromSdk(x0, y0, x1, y1))
  {
  }

  /** Clipping a rect that already avoids the last row and column of the surface changes nothing. */
  lemma ClipToFullClipKeepsInterior(bounds: Rect)
    requires bounds.Normal() && bounds.max.x < WIDTH && bounds.max.y < HEIGHT
    ensures ClipTo(bounds, FULL_CLIP) == bounds
  {
  }

  /** Clipping is idempotent. */
  lemma ClipToIdempotent(bounds: Rect, region: Rect)
    requires region.NonEmpty()
    ensures ClipTo(ClipTo(bounds, region), region) == ClipTo(bounds, region)
  {
  }
}

=== FILE: sdk_display.dfy ===
/**
 * The brain-display entry points of src/sdk/display.rs, over the canvas and
 * the display. SDK coordinates are signed and count rows from the top of
 * the user area, so the adapter shifts rows down by the header height. The
 * entry points build a `Point` from `i32`s while the canvas defines it over
 * `u32`s; the adapter here works on `int` and requires the translated
 * coordinates to be non-negative, which is where the two definitions agree.
 */
module SdkDisplay {
  import opened Types
  import opened Geometry
  import opened Buffer
  import opened Drawing
  import opened Compositor

  /** `vexDisplayForegroundColor`. */
  function ForegroundColor(c: Canvas, col: Color): (r: Canvas)
    ensures r.state.fg == col
    ensures r.state.bg == c.state.bg && r.state.clip == c.state.clip
    ensures r.buffer == c.buffer && r.saved == c.saved
  {
    c.(state := c.state.(fg := col))
  }

  /** `vexDisplayBackgroundColor`. */
  function BackgroundColor(c: Canvas, col: Color): (r: Canvas)
    ensures r.state.bg == col
    ensures r.state.fg == c.state.fg && r.state.clip == c.state.clip
    ensures r.buffer == c.buffer && r.saved == c.saved
  {
    c.(state := c.state.(bg := col))
  }

  /** `vexDisplayForegroundColorGet`: the one colour whose setting leaves the canvas as it is. */
  function ForegroundColorGet(c: Canvas): (col: Color)
    ensures ForegroundColor(c, col) == c
    ensures forall other: Color :: other != col ==> ForegroundColor(c, other) != c
  {
    c.state.fg
  }

  /** `vexDisplayBackgroundColorGet`: the one colour whose setting leaves the canvas as it is. */
  function BackgroundColorGet(c: Canvas): (col: Color)
    ensures BackgroundColor(c, col) == c
    ensures forall other: Color :: other != col ==> BackgroundColor(c, other) != c
  {
    c.state.bg
  }

  /** A colour that was set reads back unchanged, and setting one colour leaves the other alone. */
  lemma ColorSetThenGet(c: Canvas, col: Color)
    ensures ForegroundColorGet(ForegroundColor(c, col)) == col
    ensures BackgroundColorGet(ForegroundColor(c, col)) == BackgroundColorGet(c)
    ensures BackgroundColorGet(BackgroundColor(c, col)) == col
    ensures ForegroundColorGet(BackgroundColor(c, col)) == ForegroundColorGet(c)
  {
  }

  /**
   * The canvas point of SDK pixel `(x, y)`: `x as i32` and `y as i32 +
   * HEADER_HEIGHT`, which neither wrap nor overflow only below 2^31.
   */
  predicate PixelArgsOk(x: uint32, y: uint32)
  {
    x < 0x8000_0000 && y + HEADER_HEIGHT < 0x8000_0000
  }

  /** `vexDisplayPixelSet`: sets canvas pixel `(x, y + HEADER_HEIGHT)` to the foreground colour if it is inside the clip region. */
  function PixelSet(c: Canvas, x: uint32, y: uint32): (r: Canvas)
    requires c.Valid() && PixelArgsOk(x, y)
    ensures r.Valid() && r.state == c.state && r.saved == c.saved
    ensures forall p :: OnScreen(p) ==>
              At(r, p) == if p.x == x && p.y == y + HEADER_HEIGHT && IsInside(p, c.state.clip)
                          then c.state.fg else At(c, p)
  {
    SetPixel(c, Point(x, y + HEADER_HEIGHT))
  }

  /**
   * `vexDisplayPixelClear`: the same pixel in the background colour, by
   * swapping the colours around `set_pixel`; both colours end as they were.
   */
  function PixelClear(c: Canvas, x: uint32, y: uint32): (r: Canvas)
    requires c.Valid() && PixelArgsOk(x, y)
    ensures r.Valid() && r.state == c.state && r.saved == c.saved
    ensures forall p :: OnScreen(p) ==>
              At(r, p) == if p.x == x && p.y == y + HEADER_HEIGHT && IsInside(p, c.state.clip)
                          then c.state.bg else At(c, p)
  {
    var swapped := SetPixel(c.(state := SwapColors(c.state)), Point(x, y + HEADER_HEIGHT));
    swapped.(state := SwapColors(swapped.state))
  }

  /** `y + HEADER_HEIGHT as i32` does not overflow for either row argument. */
  predicate RowsShiftable(y1: int32, y2: int32)
  {
    y1 + HEADER_HEIGHT < 0x8000_0000 && y2 + HEADER_HEIGHT < 0x8000_0000
  }

  /**
   * The pixels of the inclusive SDK rectangle `(x1, y1)..(x2, y2)` after
   * `from_sdk`: corners in either order, negative coordinates clamped to 0,
   * rows shifted below the header.
   */
  predicate InSdkRect(x1: int32, y1: int32, x2: int32, y2: int32, p: Point)
  {
    && Max(Min(x1, x2), 0) <= p.x <= Max(Max(x1, x2), 0)
    && Max(Min(y1, y2) + HEADER_HEIGHT, 0) <= p.y <= Max(Max(y1, y2) + HEADER_HEIGHT, 0)
  }

  /** `vexDisplayRectFill`: fills the SDK rectangle, as far as the clip region allows, in the foreground colour. */
  function RectFill(c: Canvas, x1: int32, y1: int32, x2: int32, y2: int32): (r: Canvas)
    requires c.Valid() && c.state.clip.NonEmpty() && RowsShiftable(y1, y2)
    ensures r.Valid() && r.state == c.state && r.saved == c.saved
    ensures forall p :: OnScreen(p) ==>
              At(r, p) == if InSdkRect(x1, y1, x2, y2, p) && Fillable(c.state.clip, p) then c.state.fg else At(c, p)
  {
    FillRect(c, FromSdk(x1, y1, x2, y2))
  }

  /** `vexDisplayRectClear`: the same fill in the background colour; both colours end as they were. */
  function RectClear(c: Canvas, x1: int32, y1: int32, x2: int32, y2: int32): (r: Canvas)
    requires c.Valid() && c.state.clip.NonEmpty() && RowsShiftable(y1, y2)
    ensures r.Valid() && r.state == c.state && r.saved == c.saved
    ensures forall p :: OnScreen(p) ==>
              At(r, p) == if InSdkRect(x1, y1, x2, y2, p) && Fillable(c.state.clip, p) then c.state.bg else At(c, p)
  {
    var swapped := FillRect(c.(state := SwapColors(c.state)), FromSdk(x1, y1, x2, y2));
    swapped.(state := SwapColors(swapped.state))
  }

  /** Clearing a rectangle is filling it with the foreground and background colours exchanged. */
  lemma RectClearIsFillWithBackground(c: Canvas, x1: int32, y1: int32, x2: int32, y2: int32)
    requires c.Valid() && c.state.clip.NonEmpty() && RowsShiftable(y1, y2)
    ensures RectClear(c, x1, y1, x2, y2).buffer == RectFill(c.(state := SwapColors(c.state)), x1, y1, x2, y2).buffer
  {

  }

  /** `vexDisplayRectDraw`: the outline `trace_rect` draws around `from_sdk` of the SDK rectangle. */
  function RectDraw(c: Canvas, x1: int32, y1: int32, x2: int32, y2: int32): (r: Canvas)
    requires c.Valid() && RowsShiftable(y1, y2) && TraceRectSafe(c.state.clip, FromSdk(x1, y1, x2, y2))
    ensures r.Valid() && r.state == c.state && r.saved == c.saved
    ensures forall p :: OnScreen(p) ==>
              At(r, p) == if OutlineCovers(c.state.clip, FromSdk(x1, y1, x2, y2), p) then c.state.fg else At(c, p)
  {
    TraceRect(c, FromSdk(x1, y1, x2, y2))
  }

  /**
   * For an ordered SDK rectangle the outline's left and top edges sit on `x1`
   * and `y1`, but its right and bottom edges sit on `x2 + 1` and `y2 + 1`,
   * one past the rectangle the caller named. A vertical edge on column 480
   * lands on column 0 of the rows below instead.
   */
  lemma RectDrawEdgesPastCorner(c: Canvas, x1: int32, y1: int32, x2: int32, y2: int32, p: Point)
    requires c.Valid() && RowsShiftable(y1, y2) && TraceRectSafe(c.state.clip, FromSdk(x1, y1, x2, y2))
    requires 0 <= x1 <= x2 && 0 <= y1 <= y2 && OnScreen(p)
    requires At(RectDraw(c, x1, y1, x2, y2), p) != At(c, p)
    ensures || (&& (p.x == x1 || p.x == x2 + 1 || p.y == y1 + HEADER_HEIGHT || p.y == y2 + 1 + HEADER_HEIGHT)
                && x1 <= p.x <= x2 + 1 && y1 + HEADER_HEIGHT <= p.y <= y2 + 1 + HEADER_HEIGHT)
            || ((x1 == WIDTH || x2 + 1 == WIDTH) && p.x == 0 && y1 + HEADER_HEIGHT + 1 <= p.y <= y2 + 1 + HEADER_HEIGHT)
    ensures x2 + 1 < WIDTH ==> x1 <= p.x <= x2 + 1 && y1 + HEADER_HEIGHT <= p.y <= y2 + 1 + HEADER_HEIGHT
  {
    var bounds := FromSdk(x1, y1, x2, y2);
    assert bounds == Rect(Point(x1 as nat, (y1 + HEADER_HEIGHT) as nat), Point((x2 + 1) as nat, (y2 + 1 + HEADER_HEIGHT) as nat));
    TraceRectOnlyOutline(c, bounds, p);
  }

  /**
   * `vexDisplayRectDraw(100, 0, 479, 101)` under the default clip paints
   * column 0 of rows 33 to 134, far from the rectangle.
   */
  lemma RectDrawWrapsToColumnZero(c: Canvas, y: nat)
    requires c.Valid() && c.state.clip == FULL_CLIP && HEADER_HEIGHT + 1 <= y <= 101 + HEADER_HEIGHT + 1
    ensures TraceRectSafe(FULL_CLIP, FromSdk(100, 0, 479, 101))
    ensures At(RectDraw(c, 100, 0, 479, 101), Point(0, y)) == c.state.fg
  {
    TraceRectWrapsRightEdge(c, FromSdk(100, 0, 479, 101), y - 1);
  }

  /** The canvas centre `(xc, yc + HEADER_HEIGHT)` of an SDK circle, representable as a `u32` point. */
  predicate CentreOk(xc: int32, yc: int32)
  {
    xc >= 0 && 0 <= yc + HEADER_HEIGHT < 0x8000_0000
  }

  function Centre(xc: int32, yc: int32): Point
    requires CentreOk(xc, yc)
  {
    Point(xc, yc + HEADER_HEIGHT)
  }

  /**
   * `vexDisplayCircleFill`: `fill_circle` at the shifted centre with the
   * radius clamped to 0 from below. `points` is the Bresenham circle of that
   * radius. Only rows within the radius of the centre and columns within the
   * clip region change, always to the foreground colour, and without
   * wrap-around the centre pixel is painted when it is inside the clip region.
   */
  function CircleFill(c: Canvas, xc: int32, yc: int32, radius: int32, points: seq<CirclePoint>): (r: Canvas)
    requires c.Valid() && CentreOk(xc, yc)
    requires CircleSafe(c.state.clip, Centre(xc, yc), Max(radius, 0), points)
    ensures r.Valid() && r.state == c.state && r.saved == c.saved
    ensures forall p :: OnScreen(p) && At(r, p) != At(c, p) ==>
              && At(r, p) == c.state.fg
              && yc + HEADER_HEIGHT - Max(radius, 0) <= p.y <= yc + HEADER_HEIGHT + Max(radius, 0)
              && c.state.clip.min.x <= p.x < c.state.clip.max.x
    ensures NoLeftWrap(xc, points) && IsInside(Centre(xc, yc), c.state.clip) ==>
              At(r, Centre(xc, yc)) == c.state.fg
  {
    var center := Centre(xc, yc);
    var r := FillCircle(c, center, Max(radius, 0), points);
    forall p | OnScreen(p) && At(r, p) != At(c, p)
      ensures yc + HEADER_HEIGHT - Max(radius, 0) <= p.y <= yc + HEADER_HEIGHT + Max(radius, 0)
      ensures c.state.clip.min.x <= p.x < c.state.clip.max.x
    {
      if !(yc + HEADER_HEIGHT - Max(radius, 0) <= p.y <= yc + HEADER_HEIGHT + Max(radius, 0))
         || !(c.state.clip.min.x <= p.x < c.state.clip.max.x) {
        FillCircleStaysInRows(c, center, Max(radius, 0), points, p);
      }
    }
    assert NoLeftWrap(xc, points) && IsInside(center, c.state.clip) ==> At(r, center) == c.state.fg by {
      if NoLeftWrap(xc, points) && IsInside(center, c.state.clip) {
        FillCircleCoversCentreColumn(c, center, Max(radius, 0), points, center.y);
      }
    }
    r
  }

  /** `vexDisplayCircleClear`: the same disc in the background colour; both colours end as they were. */
  function CircleClear(c: Canvas, xc: int32, yc: int32, radius: int32, points: seq<CirclePoint>): (r: Canvas)
    requires c.Valid() && CentreOk(xc, yc)
    requires CircleSafe(c.state.clip, Centre(xc, yc), Max(radius, 0), points)
    ensures r.Valid() && r.state == c.state && r.saved == c.saved
    ensures forall p :: OnScreen(p) && At(r, p) != At(c, p) ==>
              && At(r, p) == c.state.bg
              && yc + HEADER_HEIGHT - Max(radius, 0) <= p.y <= yc + HEADER_HEIGHT + Max(radius, 0)
              && c.state.clip.min.x <= p.x < c.state.clip.max.x
    ensures NoLeftWrap(xc, points) && IsInside(Centre(xc, yc), c.state.clip) ==>
              At(r, Centre(xc, yc)) == c.state.bg
  {
    var swapped := CircleFill(c.(state := SwapColors(c.state)), xc, yc, radius, points);
    swapped.(state := SwapColors(swapped.state))
  }

  /**
   * `vexDisplayCircleClear` paints exactly the disc `fill_circle` paints in
   * the foreground colour, but in the background colour.
   */
  lemma CircleClearIsFillWithBackground(c: Canvas, xc: int32, yc: int32, radius: int32, points: seq<CirclePoint>)
    requires c.Valid() && CentreOk(xc, yc)
    requires CircleSafe(c.state.clip, Centre(xc, yc), Max(radius, 0), points)
    ensures CircleClear(c, xc, yc, radius, points).buffer
            == FillCircle(c.(state := c.state.(fg := c.state.bg)), Centre(xc, yc), Max(radius, 0), points).buffer
  {
    var painted := c.(state := c.state.(fg := c.state.bg));
    var cleared := CircleClear(c, xc, yc, radius, points);
    var filled := FillCircle(painted, Centre(xc, yc), Max(radius, 0), points);
    var swapped := FillCircle(c.(state := SwapColors(c.state)), Centre(xc, yc), Max(radius, 0), points);
    assert cleared.buffer == swapped.buffer;
    BufferExt(cleared.buffer, filled.buffer);
  }

  /** A negative radius draws exactly what radius 0 draws. */
  lemma CircleNegativeRadiusIsZero(c: Canvas, xc: int32, yc: int32, radius: int32, points: seq<CirclePoint>)
    requires c.Valid() && CentreOk(xc, yc) && radius < 0
    requires CircleSafe(c.state.clip, Centre(xc, yc), 0, points)
    ensures CircleFill(c, xc, yc, radius, points) == CircleFill(c, xc, yc, 0, points)
  {
  }

  /**
   * `Rect::new(x1, y1, x2 + 1, y2 + 1)` of `vexDisplayClipRegionSet` takes
   * `u32`s, so the corners must be non-negative once the `+ 1` is applied,
   * and the `i32` additions must not overflow.
   */
  predicate ClipArgsOk(x1: int32, y1: int32, x2: int32, y2: int32)
  {
    x1 >= 0 && y1 >= 0 && -1 <= x2 < 0x7FFF_FFFF && -1 <= y2 < 0x7FFF_FFFF
  }

  /**
   * `vexDisplayClipRegionSet`: the inclusive SDK corners become a half-open
   * rect, with no shift below the header, and the stored region is that rect
   * clipped to the surface.
   */
  function ClipRegionSet(c: Canvas, x1: int32, y1: int32, x2: int32, y2: int32): (r: Canvas)
    requires ClipArgsOk(x1, y1, x2, y2)
    ensures r.buffer == c.buffer && r.saved == c.saved
    ensures r.state.fg == c.state.fg && r.state.bg == c.state.bg
    ensures WithinSurface(r.state.clip)
    ensures forall p {:trigger IsInside(p, r.state.clip)} :: IsInside(p, r.state.clip) <==>
              && Min(x1, x2 + 1) <= p.x < Max(x1, x2 + 1) && Min(y1, y2 + 1) <= p.y < Max(y1, y2 + 1)
              && p.x + 1 < WIDTH && p.y + 1 < HEIGHT
  {
    c.(state := SetClipRegion(c.state, NewRect(x1, y1, x2 + 1, y2 + 1)))
  }

  /**
   * Because no header shift is applied, a clip region set through the SDK
   * admits rows of the header band: SDK row 0 of the clip region is canvas
   * row 0, whereas SDK row 0 of a pixel is canvas row 32.
   */
  lemma ClipRegionSetReachesHeader(c: Canvas)
    ensures IsInside(Point(0, 0), ClipRegionSet(c, 0, 0, 10, 10).state.clip)
    ensures !IsInside(Point(0, 10 + HEADER_HEIGHT), ClipRegionSet(c, 0, 0, 10, 10).state.clip)
  {
  }

  /**
   * `vexDisplayRender` without vsync: turns automatic rendering off and
   * blits the user canvas onto the display at once.
   */
  function Render(d: SimDisplay, canvas: Canvas): (r: SimDisplay)
    requires d.Valid() && canvas.Valid()
    ensures r.Valid() && !r.autorender && r.fullscreen == d.fullscreen
    ensures forall p :: OnScreen(p) ==>
              Visible(r, p) == if d.fullscreen || p.y >= HEADER_HEIGHT then At(canvas, p) else Visible(d, p)
  {
    RenderUserCanvas(SetAutorender(d, false), canvas)
  }

  /** `vexDisplayDoubleBufferDisable`: turns automatic rendering back on. */
  function DoubleBufferDisable(d: SimDisplay): (r: SimDisplay)
    ensures r.autorender
    ensures r.buffer == d.buffer && r.fullscreen == d.fullscreen
  {
    SetAutorender(d, true)
  }

  /**
   * Once a program has called `vexDisplayRender`, later redraws no longer
   * pick up the user canvas: below the header the display keeps what the
   * render blitted, whatever the canvas holds by then.
   */
  lemma RenderedFrameSurvivesRedraw(w: Window, d: SimDisplay, rendered: Canvas, later: Canvas, p: Point)
    requires HeaderCanvasOk(w.header) && d.Valid() && rendered.Valid() && later.Valid()
    requires OnScreen(p) && p.y >= HEADER_HEIGHT
    ensures Visible(Redraw(QueueRedraw(w), Render(d, rendered), later).display, p) == At(rendered, p)
  {
  }

  /** After `vexDisplayDoubleBufferDisable`, the next scheduled redraw shows the live canvas below the header. */
  lemma DisabledDoubleBufferShowsCanvas(w: Window, d: SimDisplay, user: Canvas, p: Point)
    requires HeaderCanvasOk(w.header) && d.Valid() && user.Valid()
    requires OnScreen(p) && p.y >= HEADER_HEIGHT
    ensures Visible(Redraw(QueueRedraw(w), DoubleBufferDisable(d), user).display, p) == At(user, p)
  {
  }
}

=== FILE: types.dfy ===
/** Machine integer ranges and the optional value used by the rasteriser model. */
module Types {

  /** The conventional Some/None datatype (Rust's `Option`). */
  datatype Option<+T> = None | Some(value: T)

  const U32_MODULUS: nat := 0x1_0000_0000

  /** Rust `u32`. */
  type uint32 = x: int | 0 <= x < 0x1_0000_0000

  /** Rust `i32`. */
  type int32 = x: int | -0x8000_0000 <= x < 0x8000_0000

  /** Rust `u8`. */
  type uint8 = x: int | 0 <= x < 0x100

  /** The Rust cast `v as u32` of a signed 32-bit value: negative values wrap around by 2^32. */
  function WrapU32(v: int32): (r: uint32)
    ensures v >= 0 ==> r == v
    ensures v < 0 ==> r == v + U32_MODULUS && r >= 0x8000_0000
  {
    v % U32_MODULUS
  }

  function Max(a: int, b: int): int { if a >= b then a else b }

  function Min(a: int, b: int): int { if a <= b then a else b }
}
